=== FILE: README.md ===
# Registration form: a Dafny model

This project models the logic of a small React registration form that has no server. The form takes a candidate record (name, email, gender, birth date, profile photo, years of experience, skills, bio, consent) and checks it against a declarative schema. A passing record goes into a single-slot store mirrored in the browser's localStorage. A summary page then shows the stored record in three sections.

The model has one Dafny module per part of the program, plus one module of JavaScript semantics:

- `Js` (`js.dfy`) holds the JavaScript values the form handles and the built-ins its code relies on:
  - property lookup, where a missing property reads as `undefined`;
  - truthiness;
  - `length` and `[0]` on strings, arrays and file lists;
  - `Number.prototype.toString` for integers;
  - `Array.prototype.join`;
  - `String.prototype.trim`, with the whitespace set of ECMA-262 sections 12.2 and 12.3.
- `FormSchema` (`form_schema.dfy`) is the zod schema, written as a pure validator. The result is either the record's schema properties or, for each failing field, the first issue its rules raised. That is the message the form shows under the field.
- `MultiSelectField` (`multi_select.dfy`) is the skills selector:
  - `toggleOption` and `removeOption`, as pure list functions;
  - a class whose `selected` field the two handlers replace;
  - the summary label on the dropdown button.
- `FileUploadField` (`file_upload.dfy`) is the photo field: the bound form value, the drag-highlight flag, and the preview callback, as a class with one method per handler.
- `ResultView` (`result_page.dfy`) is the summary page, a pure projection of the stored record:
  - the "No Data Found" branch;
  - the three fixed groups;
  - the blank-value filter and the rule for when a section is shown;
  - value formatting;
  - the camelCase-to-label transform.
- `FormContext` (`form_context.dfy`) is the single-slot store: the provider's state as a class, its load-on-mount and save transitions as functions of the state, what a record looks like after a trip through JSON, and `useFormContext`.

Some behaviour depends on code that is not visible here. Email syntax and date validity are the two function-typed fields of `FormSchema.FormatChecks`. `JSON.stringify` and `JSON.parse` are the function-typed parameters `Stringify` and `Parse`. What the browser's JSON does to a saved record is the reference function `JsonRecord`. Its one loss is the photo: a file list comes back as a plain object. That `Stringify` and `Parse` behave this way is a precondition of the reload lemmas, never an assumption.

## Model

| member | source | states |
|---|---|---|
| FormSchema.FieldsComplete | src/types/form.types.ts:6-25 | The schema lists every field under its own property name, and no two fields share a name. |
| FormSchema.Message | src/types/form.types.ts:7-24 | The schema gives its own non-empty text for every issue except Required, the type error, the enum error and the two number bounds, whose wording the library owns. |
| FormSchema.StringRule | src/types/form.types.ts:8-10 | A string field with a delegated check (email, date) passes iff the value is a string the check accepts. A missing value reports "required", and a string the check rejects reports the field's own message. |
| FormSchema.FullNameIssues | src/types/form.types.ts:7 | The name passes iff it is a string of at least 3 characters. |
| FormSchema.GenderIssues | src/types/form.types.ts:9 | The gender passes iff it is exactly "male", "female" or "other". A missing gender reports Required, and any other string reports the enum error alone. |
| FormSchema.PhotoIssues | src/types/form.types.ts:11-18 | The photo passes iff it is a file list of exactly one file of at most 5,000,000 bytes whose type is image/jpeg, image/jpg, image/png or image/webp. Each refinement reports its own message exactly when its check fails: "Profile photo is required." iff the length is not 1, "Max file size is 5MB." iff there is no first file or it is larger than the limit, and the type message iff there is no first file or its type is not accepted. The issues come out in declared order: count, size, type. |
| FormSchema.YearsIssues | src/types/form.types.ts:20 | Experience passes iff it is a number in the closed range [0, 50]. Below 0 reports the lower-bound issue alone, and above 50 the upper-bound issue alone. |
| FormSchema.SkillsIssues | src/types/form.types.ts:21 | Skills pass iff they are a non-empty array. An empty array reports "Select at least one skill". |
| FormSchema.BioIssues | src/types/form.types.ts:23 | The bio passes iff it is absent or a string of at most 500 characters. Every longer string reports the bio message alone, and any other value, null included, reports a type error. |
| FormSchema.TermsIssues | src/types/form.types.ts:24 | Consent passes iff it is `true`. `false` reports "You must agree to the terms". |
| FormSchema.Issues | src/types/form.types.ts:6-25 | Each field is checked by its own rules. Only the photo can report several issues (at most three); every other field reports at most one. |
| FormSchema.Errors | src/types/form.types.ts:6-25 | A field has an error exactly when it fails its rules, and its error is the first issue its rules raised. |
| FormSchema.SchemaPart | src/types/form.types.ts:6 | Unknown properties are dropped: the result has schema properties only, each with the candidate's value, and every schema field reads as it did. |
| FormSchema.Validate | src/types/form.types.ts:6-25 | The record is valid iff every field passes. Otherwise the errors name exactly the failing fields, each with its first issue. A valid result keeps every schema property's value and drops every other property. |
| FormSchema.ErrorsEmpty | src/types/form.types.ts:6-25 | There are no errors iff every field passes. |
| FormSchema.RevalidateValid | src/types/form.types.ts:6-25 | Validating a validated record again gives the same result. |
| FormSchema.MissingValueIssues | src/types/form.types.ts:7-24 | A missing value fails every field except the optional bio. The photo then reports all three of its refinements. |
| FormSchema.OtherFieldsUnaffected | src/types/form.types.ts:6-25 | Removing one property does not change whether any other field passes. |
| FormSchema.SingleFailure | src/types/form.types.ts:6-25 | When one field alone fails, the errors name that field alone, with its first issue. |
| FormSchema.MissingFieldReportedAlone | src/types/form.types.ts:6-25 | Removing a required field from a valid record fails that field alone, with "required" ("Profile photo is required." for the photo). Removing the bio keeps the record valid. |
| FormSchema.NameAndYearBoundaries | src/types/form.types.ts:7-20 | Name: length 2 fails and 3 passes. Experience: -1 and 51 fail, 0 and 50 pass, and a string is a type error. |
| FormSchema.PhotoSizeBoundary | src/types/form.types.ts:3-14 | An accepted image of exactly 5,000,000 bytes passes. One byte more fails with the size message alone. |
| FormSchema.GifRejected | src/types/form.types.ts:4-18 | A GIF within the size limit fails with the type message alone. |
| FormSchema.NoPhoto | src/types/form.types.ts:13-18 | A missing, null or empty photo fails all three refinements, and the message shown is "Profile photo is required.". |
| FormSchema.OtherBoundaries | src/types/form.types.ts:9-24 | A bio of 500 characters passes and one of 501 fails. Empty skills fail and one skill passes. `false` consent fails and `true` passes. Gender is case-sensitive. |
| Js.FirstFile | src/types/form.types.ts:14-16 | `v?.[0]` is a file exactly for a non-empty file list, and then it is its first entry. The upload field shows the same file (src/components/FileUpload.tsx:22). |
| Js.Get | src/pages/ResultPage.tsx:75-91 | A property reads as undefined exactly when it is absent or stored as undefined; otherwise it is the stored value. |
| Js.Length | src/types/form.types.ts:13 | `files?.length` is a number exactly for strings and arrays, a file list included, and then it is their number of entries. |
| Js.Truthy | src/pages/ResultPage.tsx:90 | A value is falsy exactly when it is undefined, null, false, 0 or the empty string; every object, an empty array included, is truthy. |
| Js.DecimalString | src/components/MultiSelect.tsx:69 | The decimal text of a count is a non-empty string of digits with no leading zero. |
| Js.DecimalRoundTrip | src/components/MultiSelect.tsx:69 | Reading the decimal text back gives the number. |
| Js.DecimalInjective | src/components/MultiSelect.tsx:69 | Different counts are written differently. |
| Js.DigitPrefixDetermined | src/components/MultiSelect.tsx:69 | A digit string followed by a non-digit is recovered from the concatenation. |
| Js.NumberString | src/pages/ResultPage.tsx:65 | `toString` of an integer is non-empty and starts with "-" exactly for a negative number. |
| Js.NumberStringInjective | src/pages/ResultPage.tsx:65 | Different integers are shown as different texts. |
| Js.Join | src/pages/ResultPage.tsx:65 | The joined text starts with the first item. With a non-empty separator it is empty only for no items or one empty item. |
| Js.JoinAppend | src/pages/ResultPage.tsx:65 | Joining keeps the items in order: the join of a concatenation is the two joins around one separator. |
| Js.TrimStart | src/pages/ResultPage.tsx:51 | Trimming the start removes a leading run of whitespace only, and the result does not start with whitespace. |
| Js.TrimEnd | src/pages/ResultPage.tsx:51 | Trimming the end removes a trailing run of whitespace only, and the result does not end with whitespace. |
| Js.Trim | src/pages/ResultPage.tsx:51 | `trim` gives a string that neither starts nor ends with whitespace, no longer than the input, and empty exactly when the input is all whitespace. |
| Js.TrimKeepsNonWhitespace | src/pages/ResultPage.tsx:51 | `trim` removes whitespace and nothing else. |
| MultiSelectField.Without | src/components/MultiSelect.tsx:27-28 | Filtering keeps exactly the entries other than the option, and it returns the list unchanged when the option is absent. |
| MultiSelectField.Toggled | src/components/MultiSelect.tsx:16-19 | After a toggle, the option is selected iff it was not, and every other option is as it was. An absent option is appended at the end, after the unchanged earlier entries. |
| MultiSelectField.WithoutAppend | src/components/MultiSelect.tsx:18 | Filtering keeps the relative order: it distributes over concatenation. |
| MultiSelectField.WithoutMultiset | src/components/MultiSelect.tsx:18 | Filtering removes every occurrence of the option and keeps every occurrence of everything else. |
| MultiSelectField.ToggleTwice | src/components/MultiSelect.tsx:16-19 | Toggling an absent option twice restores the list. |
| MultiSelectField.WithoutKeepsNoDuplicates | src/components/MultiSelect.tsx:28 | Filtering a list without repeats gives a list without repeats. |
| MultiSelectField.ToggleKeepsNoDuplicates | src/components/MultiSelect.tsx:17-19 | A list without repeats keeps none after a toggle or a remove. |
| MultiSelectField.CountLabel | src/components/MultiSelect.tsx:69 | The placeholder "Select skills..." is shown exactly when nothing is selected. Otherwise the label starts with the count written in full, followed by a space. |
| MultiSelectField.CountLabelInjective | src/components/MultiSelect.tsx:69 | Different counts give different labels. |
| MultiSelectField.CountLabelNoneOrOne | src/components/MultiSelect.tsx:69 | 0 shows "Select skills..." and 1 shows "1 skill selected". |
| MultiSelectField.CountLabelPlural | src/components/MultiSelect.tsx:69 | For every count from 2 on, the label is the count's decimal text followed by " skills selected". |
| MultiSelectField.MultiSelect.constructor | src/components/MultiSelect.tsx:13 | Nothing is selected at first. |
| MultiSelectField.MultiSelect.Label | src/components/MultiSelect.tsx:69 | The button shows the placeholder exactly when the selection is empty. |
| MultiSelectField.MultiSelect.ToggleOption | src/components/MultiSelect.tsx:16-25 | The stored list becomes the toggled list, and the callback, when supplied, receives exactly that list. |
| MultiSelectField.MultiSelect.RemoveOption | src/components/MultiSelect.tsx:27-33 | The stored list becomes the filtered list, and the callback, when supplied, receives exactly that list. |
| FileUploadField.SelectNotification | src/components/FileUpload.tsx:40-44 | The callback fires iff it is supplied and the selection is non-empty, and it receives the first file. |
| FileUploadField.ShowsFileName | src/components/FileUpload.tsx:22-23 | A file name is shown exactly when the value is a non-empty file list whose first file has a non-empty name. |
| FileUploadField.IsSelection | src/components/FileUpload.tsx:40 | A drop or browse counts exactly when its file list has a first file; a missing or empty list is ignored. |
| FileUploadField.AfterSelect | src/components/FileUpload.tsx:39-41 | After a non-empty drop or browse, the value is a file list and the field shows the selection's first file. After an empty or missing selection the value is unchanged. |
| FileUploadField.SelectionReplacesValue | src/components/FileUpload.tsx:39-55 | A non-empty selection replaces the value, and the field then shows its first file. A missing or empty selection changes nothing and fires nothing. |
| FileUploadField.PreviewMatchesField | src/components/FileUpload.tsx:39-55 | After a selection, the preview callback receives the very file the field shows. |
| FileUploadField.SelectedPhotoPasses | src/components/FileUpload.tsx:39-41 | Selecting one accepted image within the size limit makes the photo field pass, whatever it held before. |
| FileUploadField.SeveralFilesFail | src/components/FileUpload.tsx:39-43 | Dropping several files shows the first, but the photo field then fails with "Profile photo is required.". |
| FileUploadField.ClearedFieldFails | src/components/FileUpload.tsx:58-59 | A cleared field shows no file and fails with "Profile photo is required.". |
| FileUploadField.FileUpload.constructor | src/components/FileUpload.tsx:15 | The field starts with its bound value and no drag highlight. |
| FileUploadField.FileUpload.HandleDragOver | src/components/FileUpload.tsx:25-28 | Drag-over sets the highlight and leaves the value alone. |
| FileUploadField.FileUpload.HandleDragLeave | src/components/FileUpload.tsx:30-33 | Drag-leave clears the highlight and leaves the value alone. |
| FileUploadField.FileUpload.HandleDrop | src/components/FileUpload.tsx:35-46 | A drop clears the highlight, replaces the value with a non-empty selection, and notifies with its first file. |
| FileUploadField.FileUpload.HandleFileChange | src/components/FileUpload.tsx:48-56 | Browsing replaces the value with a non-empty selection and notifies with its first file. The highlight is untouched. |
| FileUploadField.FileUpload.ClearFile | src/components/FileUpload.tsx:58-63 | Clearing sets the value to null and notifies with null. |
| ResultView.SpaceBeforeCapitals | src/pages/ResultPage.tsx:51 | Nothing: it is the definition of `replace(/([A-Z])/g, ' $1')`. SpacingLength, SpacingPrecedesCapitals and SpacingAddsOnlySpaces state its properties. |
| ResultView.SpacingLength | src/pages/ResultPage.tsx:51 | The replace adds at most one character per character: the spaced text is at least as long as the key and at most twice as long. |
| ResultView.SpacingPrecedesCapitals | src/pages/ResultPage.tsx:51 | After spacing, no capital comes first and every capital follows a space. |
| ResultView.SliceKeepsSpacedCapitals | src/pages/ResultPage.tsx:51 | Cutting a string keeps every capital after a space. |
| ResultView.SpacingAddsOnlySpaces | src/pages/ResultPage.tsx:51 | Spacing capitals inserts spaces and nothing else. |
| ResultView.NoWhitespaceUnchanged | src/pages/ResultPage.tsx:51 | Dropping whitespace from a string without any leaves it unchanged. |
| ResultView.TrimKeepsSpacedCapitals | src/pages/ResultPage.tsx:51 | Trimming keeps every capital after a space. |
| ResultView.KeyLabel | src/pages/ResultPage.tsx:51 | In a label, every capital after the first character follows a space. Without its whitespace, the label is the key without its whitespace. |
| ResultView.KeyHasNoWhitespace | src/pages/ResultPage.tsx:75-91 | The property names the page labels contain no whitespace. |
| ResultView.Caption | src/pages/ResultPage.tsx:50-51 | The dt text of a row has every capital after a space, and with its spaces removed it is the row's property name. |
| ResultView.KeyLabelKeepsKey | src/pages/ResultPage.tsx:51 | Read without its spaces, a label gives back its key. |
| ResultView.SpacingAppend | src/pages/ResultPage.tsx:51 | Spacing works character by character: it distributes over concatenation. |
| ResultView.TrimUnchanged | src/pages/ResultPage.tsx:51 | Trimming a string that neither starts nor ends with whitespace leaves it as it is. |
| ResultView.SpacingNoCapitals | src/pages/ResultPage.tsx:51 | A string without capitals is not changed by spacing. |
| ResultView.CapitalWord | src/pages/ResultPage.tsx:51 | A capitalised word with no other capitals gets exactly one space in front. |
| ResultView.SpacingTwoWords | src/pages/ResultPage.tsx:51 | Spacing a two-word camelCase name puts one space before the capital. |
| ResultView.KeyLabelTwoWords | src/pages/ResultPage.tsx:51-62 | The label of a two-word camelCase key is its words separated by a space ("fullName" gives "full Name"). |
| ResultView.KeyLabelThreeWords | src/pages/ResultPage.tsx:51-62 | The label of a three-word camelCase key is its words separated by spaces ("yearsOfExperience" gives "years Of Experience"). |
| ResultView.DisplayText | src/pages/ResultPage.tsx:65 | A present value is shown as empty text only when it is an array of no items or of one empty string. Booleans are shown as "true" or "false", numbers by their decimal text, strings as they are, arrays joined with ", ", a file list as "[object FileList]" and a plain object as "[object Object]". |
| ResultView.AttachmentName | src/pages/ResultPage.tsx:54 | The attachment text is never empty: it is the first file's name when that is non-empty, and "No file" otherwise. |
| ResultView.RenderRow | src/pages/ResultPage.tsx:45-65 | A row keeps its field. It is an attachment exactly for the photo property holding a file list. Only an array can give a row with empty text. |
| ResultView.RenderRows | src/pages/ResultPage.tsx:44-69 | A section never has more rows than entries. |
| ResultView.RenderRowsComplete | src/pages/ResultPage.tsx:44-69 | Every entry that is not undefined, null or '' is rendered as a row. |
| ResultView.RenderRowsSound | src/pages/ResultPage.tsx:44-69 | Every row comes from an entry that is not undefined, null or ''. |
| ResultView.IsBlank | src/pages/ResultPage.tsx:45 | A value is skipped exactly when it is falsy but neither a boolean nor a number: undefined, null or the empty string. |
| ResultView.HasData | src/pages/ResultPage.tsx:32 | A group without entries has no data. |
| ResultView.HasDataTruthy | src/pages/ResultPage.tsx:32 | A group has data exactly when one of its values is truthy, a boolean or a number. |
| ResultView.RenderRowsCount | src/pages/ResultPage.tsx:32-45 | A section has rows iff `hasData` holds, and never more rows than entries. |
| ResultView.RenderRowsAppend | src/pages/ResultPage.tsx:44 | Rows keep the order of the entries. |
| ResultView.RenderSection | src/pages/ResultPage.tsx:31-33 | A section is rendered, under its own group, iff one of its values is not undefined, null or '', and a rendered section has rows. |
| ResultView.PersonalInfo | src/pages/ResultPage.tsx:75-81 | The personal group holds the first five schema fields in schema order, each with its stored value unchanged. |
| ResultView.ProfessionalInfo | src/pages/ResultPage.tsx:83-86 | The professional group holds the next two schema fields, each with its stored value unchanged. |
| ResultView.AdditionalInfo | src/pages/ResultPage.tsx:88-91 | The additional group holds the stored bio, then the consent flag as "✓ Agreed" exactly when the stored flag is truthy and "✗ Not Agreed" otherwise. That text is never blank. |
| ResultView.GroupsCoverSchema | src/pages/ResultPage.tsx:75-91 | Personal, professional and additional list every schema field exactly once, in schema order. |
| ResultView.ResultPage | src/pages/ResultPage.tsx:9-29 | With no stored record the page is "No Data Found". Otherwise it has one to three sections, and the last one is always the additional section. |
| ResultView.SectionsShown | src/pages/ResultPage.tsx:31-33 | The personal and professional sections appear exactly when they hold a present value. The additional section always appears, last. |
| ResultView.FalsyButPresent | src/pages/ResultPage.tsx:45-65 | 0 and `false` are shown as "0" and "false"; undefined, null and '' are blank. |
| ResultView.PhotoRow | src/pages/ResultPage.tsx:47-65 | A photo file list is an attachment row showing its first file's name, or "No file". A photo that is a plain object is a text row "[object Object]". |
| ResultView.ArrayRow | src/pages/ResultPage.tsx:65 | An array is shown with its items joined by ", " in stored order. |
| ResultView.ValidRecordValuesPresent | src/pages/ResultPage.tsx:75-86 | A validated record has a present name and experience and a file-list photo. |
| ResultView.PresentEntryShown | src/pages/ResultPage.tsx:31-69 | A group with a present value is rendered, with that value's row. |
| ResultView.ThreeSections | src/pages/ResultPage.tsx:75-91 | When all three groups render, the page shows them in order. |
| ResultView.SectionHeadings | src/pages/ResultPage.tsx:124-144 | A page showing all three groups heads them "Personal Information", "Professional Info" and "Additional Information", in that order. |
| ResultView.AllSectionsShown | src/pages/ResultPage.tsx:31-91 | A record whose experience and photo are present shows all three sections in order, with the photo's row in the personal section. |
| ResultView.ValidRecordShowsAllSections | src/pages/ResultPage.tsx:31-91 | A validated record shows all three sections, with its photo as an attachment row. |
| FormContext.Loaded | src/context/FormContext.tsx:17-26 | On mount, a non-empty stored text that parses becomes the record. A missing key, an empty text or a parse error leaves the record as it was. |
| FormContext.Saved | src/context/FormContext.tsx:28-31 | A save writes the record's text under "formData" and leaves every other key as it was. |
| FormContext.SaveIdempotent | src/context/FormContext.tsx:28-31 | Saving the same record twice is the same as saving it once. |
| FormContext.LastSaveWins | src/context/FormContext.tsx:28-31 | The last save wins, and nothing of an earlier save is left. |
| FormContext.JsonImage | src/context/FormContext.tsx:21-30 | A value read back from JSON is never a file list, and every value other than a file list comes back unchanged. |
| FormContext.JsonRecord | src/context/FormContext.tsx:21-30 | Every property of a record read back from JSON reads as the JSON image of the stored property. |
| FormContext.ReloadAfterSave | src/context/FormContext.tsx:17-31 | With the browser's JSON, a reload after a save finds the saved record's JSON image, whatever was in memory. A record holding no file list is found exactly as it was saved. |
| FormContext.LoadTolerant | src/context/FormContext.tsx:15-24 | A missing, empty or unparsable stored text leaves the record null on a fresh start. |
| FormContext.ReloadTurnsPhotoIntoText | src/context/FormContext.tsx:17-31 | A record with present experience and a file-list photo, once saved and reloaded, still shows all three sections. Its photo row is then the text "[object Object]", and the photo is no longer an attachment. |
| FormContext.SavedRecordShownAfterReload | src/context/FormContext.tsx:17-31 | A validated record shows its photo as an attachment row. Once saved and reloaded, it shows all three sections, but the photo row is the text "[object Object]". |
| FormContext.PortableRecord | src/context/FormContext.tsx:28-31 | The portable record holds no file list. Each file list is replaced by the name the summary page shows for it, and every other property is kept. |
| FormContext.PortableReloadKeepsPhotoName | src/context/FormContext.tsx:17-31 | Saving the portable record, a reload gives back exactly what was saved, and the page shows all three sections with the photo's file name. |
| FormContext.PortableRecordShownAfterReload | src/context/FormContext.tsx:17-31 | Saving the portable record of a validated record, the page after a reload names the same file it showed as an attachment before the reload. |
| FormContext.FormProvider.constructor | src/context/FormContext.tsx:15 | The record starts as null. |
| FormContext.FormProvider.LoadStored | src/context/FormContext.tsx:17-26 | The load effect sets the record as `Loaded` says and never writes storage. When the storage read itself throws, the exception leaves the effect and the record stays as it was. |
| FormContext.FormProvider.SetFormData | src/context/FormContext.tsx:28-31 | A save always sets the record in memory. When storage accepts the write, the record's text is stored under "formData". When `setItem` throws, storage keeps its old text and the exception reaches the caller. |
| FormContext.UseFormContext | src/context/FormContext.tsx:6-12 | Outside a provider the hook fails with "useFormContext must be used within a FormProvider". Inside one it returns the provider's value. |

## Left out

- **Email syntax and date validity.** These come from zod's email check and from `new Date(date).toString()`. Both are parameters (`FormatChecks`), so no property of them is stated.
- **JSON and localStorage.** `JSON.stringify` and `JSON.parse` are parameters. The reload lemmas require that they behave as the browser's do on the saved record (`JsonFaithful`): the text is not empty and reads back as the record's JSON image, in which a `FileList` has become a plain object. Stored JSON text that parses to something other than an object or null is not modelled.
- **Numbers are integers.** NaN, fractions and infinities are not modelled, so zod's NaN rejection and non-integer years are absent. `NumberString` writes every integer as plain digits. JavaScript numbers are doubles, so from 1e21 on `toString` gives exponent notation such as "1e+21", and integers above 2^53 are not exact.
- **String lengths are counted in Unicode scalar values.** JavaScript counts UTF-16 code units, so a name or bio containing characters outside the Basic Multilingual Plane has a different length here.
- **Wording owned by the validation library.** Messages zod supplies itself ("Required", type errors, the number bounds, the enum error) are issue tags without text (`Message` gives `None`).
- **The bio message says "less than 500" while the rule accepts 500.** The model follows the rule (`max(500)`, inclusive).
- **Arrays of non-strings, and values of other JavaScript types,** are not values of the model. The one exception is `PlainObject`, which stands for any other object and carries no properties. The skills check for element type is therefore not modelled.
- FormContext.FormProvider.LoadStored: models a throwing `getItem` (src/context/FormContext.tsx:18, outside the `try`) only as the returned flag. What the uncaught exception in the mount effect then does to the React tree is not modelled.
- FormContext.FormProvider.SetFormData: models a throwing `setItem` only as the returned flag. What the exception then does to the submit handler (src/pages/FormPage.tsx:34-52) is not modelled: the button stays disabled, no toast is shown and the page does not navigate. The submit flow is not modelled at all (see below).
- Js.FirstFile: as the file the upload field shows, treats any value other than a file list as no file. The field's value can be undefined (the form's defaults are `storedData || {}`, src/pages/FormPage.tsx:26), null after clearing, a file list, or the plain object a reload leaves behind; for all of these the component also shows no file. Only a non-empty string value would differ: the component would take its first character.
- **The multi-select's open/closed flag (src/components/MultiSelect.tsx:14, :63) and the hidden native select's change handler (:46-49)** are UI state with no rule of their own.
- **CustomSelect, SelectField and TextAreaField** are not modelled. They are dropdown state and thin wrappers without logic.
- **The asynchronous submit flow of the form page** is not modelled: the delay, the toast, navigation and the disabled button. Its only durable effect is a call to `setFormData`, which is modelled. The photo is stored as the form holds it; there is no data-URI encoding step.
- **Rendering.** JSX, CSS (including the `capitalize` class that upper-cases the first letter of each label word on screen), icons and the drag-and-drop event plumbing beyond the state changes above are not modelled.
- **Concurrency and React's render scheduling.** This includes the effect running twice under strict mode. The load effect is modelled as one transition.

## Findings

| source | as written | input that shows it | evidently intended | confidence | as-written member | corrected member |
|---|---|---|---|---|---|---|
| src/context/FormContext.tsx:30 | The record is stored with `JSON.stringify`, photo included. A `FileList` has no own properties but its indices, and a `File` has none, so the photo is stored as `{"0":{}}`. After a reload the summary page finds no `FileList` (src/pages/ResultPage.tsx:47) and prints the photo with `toString()` (:65) as "[object Object]". | Any valid submission, followed by reloading the summary page. | The summary page names the uploaded file after a reload, as it does before. | not executed; follows from how browsers serialise a `FileList` | FormContext.SavedRecordShownAfterReload | FormContext.PortableRecordShownAfterReload |

The provider class models the code as written, so it saves the record with its file list. The corrected definition is `FormContext.PortableRecord`, which stores the shown file name in place of the file list.

=== FILE: file_upload.dfy ===
/** The single-file upload field: the form value it is bound to, the
    drag-highlight flag, and the optional onFileChange callback that the page
    uses for the photo preview. Selecting files by drop or by browsing
    replaces the value; an empty selection is ignored; clearing sets the
    value to null. */
module FileUploadField {
  import opened Js
  import FormSchema

  /** What the onFileChange callback received during one event: nothing
      (no callback, or the handler did not call it), or a file or null. */
  datatype Notification = NotCalled | Called(file: Option<File>)

  /** Whether a file name is displayed: the shown file is the first entry of
      a non-empty file list, and an empty name is falsy and is not shown. */
  predicate ShowsFileName(value: Value): (shown: bool)
    ensures shown <==> value.Files? && |value.files| > 0 && value.files[0].name != ""
  {
    FirstFile(value).Some? && FirstFile(value).value.name != ""
  }

  /** The files of a drop or browse event count only when present and non-empty. */
  predicate IsSelection(files: Option<seq<File>>): (selection: bool)
    ensures files == None || files == Some([]) ==> !selection
    ensures selection <==> files.Some? && FirstFile(Files(files.value)).Some?
  {
    files.Some? && |files.value| > 0
  }

  /** The field value after a drop or browse event: a selection's first file
      is shown from then on; without one, the field shows what it showed. */
  function AfterSelect(value: Value, files: Option<seq<File>>): (after: Value)
    ensures IsSelection(files) ==> after.Files? && FirstFile(after) == Some(files.value[0])
    ensures !IsSelection(files) ==> after == value
  {
    if IsSelection(files) then Files(files.value) else value
  }

  /** What onFileChange receives on a drop or browse event. */
  function SelectNotification(files: Option<seq<File>>, hasCallback: bool): (n: Notification)
    ensures n.Called? <==> hasCallback && IsSelection(files)
    ensures n.Called? ==> n.file == Some(files.value[0])
  {
    if IsSelection(files) && hasCallback then Called(Some(files.value[0])) else NotCalled
  }

  /** A non-empty selection replaces the value, and the field then shows its
      first file; a missing or empty selection changes nothing. */
  lemma SelectionReplacesValue(value: Value, files: Option<seq<File>>)
    ensures IsSelection(files) ==>
      AfterSelect(value, files) == Files(files.value) && FirstFile(AfterSelect(value, files)) == Some(files.value[0])
    ensures !IsSelection(files) ==>
      AfterSelect(value, files) == value && SelectNotification(files, true) == NotCalled
  {
  }

  /** The preview follows the field: after a selection the callback receives
      the very file the field now shows. */
  lemma PreviewMatchesField(value: Value, files: Option<seq<File>>)
    requires IsSelection(files)
    ensures SelectNotification(files, true) == Called(FirstFile(AfterSelect(value, files)))
  {
  }

  /** Selecting one image of an accepted type within the size limit makes the
      photo field pass validation, whatever it held before. */
  lemma SelectedPhotoPasses(value: Value, f: File)
    requires f.size <= FormSchema.MaxFileSize && f.mimeType in FormSchema.AcceptedImageTypes
    ensures FormSchema.PhotoIssues(AfterSelect(value, Some([f]))) == []
  {
  }

  /** Dropping several files shows the first one, but the field then fails
      validation with "Profile photo is required.". */
  lemma SeveralFilesFail(value: Value, files: seq<File>)
    requires |files| > 1
    ensures FirstFile(AfterSelect(value, Some(files))) == Some(files[0])
    ensures var issues := FormSchema.PhotoIssues(AfterSelect(value, Some(files)));
      |issues| > 0 && issues[0] == FormSchema.PhotoRequired
  {
  }

  /** A cleared field shows no file and fails validation with "Profile photo
      is required.". */
  lemma ClearedFieldFails()
    ensures FirstFile(Null) == None && !ShowsFileName(Null)
    ensures FormSchema.PhotoIssues(Null)[0] == FormSchema.PhotoRequired
  {
  }

  /** One rendering of the field: the bound form value and the drag flag. */
  class FileUpload {
    var value: Value
    var isDragging: bool

    constructor (initial: Value)
      ensures value == initial && !isDragging
    {
      value := initial;
      isDragging := false;
    }

    method HandleDragOver()
      modifies this
      ensures isDragging && value == old(value)
    {
      isDragging := true;
    }

    method HandleDragLeave()
      modifies this
      ensures !isDragging && value == old(value)
    {
      isDragging := false;
    }

    /** A drop ends the drag whether or not it carried files. */
    method HandleDrop(files: Option<seq<File>>, hasCallback: bool) returns (notified: Notification)
      modifies this
      ensures !isDragging
      ensures value == AfterSelect(old(value), files)
      ensures notified == SelectNotification(files, hasCallback)
    {
      isDragging := false;
      notified := NotCalled;
      if files.Some? && |files.value| > 0 {
        value := Files(files.value);
        if hasCallback {
          notified := Called(Some(files.value[0]));
        }
      }
    }

    /** Browsing leaves the drag flag alone. */
    method HandleFileChange(files: Option<seq<File>>, hasCallback: bool) returns (notified: Notification)
      modifies this
      ensures isDragging == old(isDragging)
      ensures value == AfterSelect(old(value), files)
      ensures notified == SelectNotification(files, hasCallback)
    {
      notified := NotCalled;
      if files.Some? && |files.value| > 0 {
        value := Files(files.value);
        if hasCallback {
          notified := Called(Some(files.value[0]));
        }
      }
    }

    method ClearFile(hasCallback: bool) returns (notified: Notification)
      modifies this
      ensures value == Null && isDragging == old(isDragging)
      ensures notified == if hasCallback then Called(None) else NotCalled
    {
      value := Null;
      notified := if hasCallback then Called(None) else NotCalled;
    }
  }
}

=== FILE: form_context.dfy ===
/** The single-slot store shared by the form page and the summary page: one
    in-memory record (null until something is loaded or saved) mirrored in
    the browser's localStorage under one fixed key. JSON.stringify and
    JSON.parse are parameters: Stringify maps a record to its text, Parse maps
    a text to None when JSON.parse throws, to Some(None) for the JSON text
    null, and to Some(Some(record)) for an object. */
module FormContext {
  import opened Js
  import FormSchema
  import ResultView

  /** The localStorage key the record is kept under. */
  const StorageKey := "formData"

  /** Browser storage: text values by key. */
  type Storage = map<string, string>

  type Stringify = Object -> string
  type Parse = string -> Option<Option<Object>>

  // ---------------------------------------------------------------------
  // The provider's two transitions, as functions of the state

  /** The record after the load-on-mount effect: replaced by the parsed text
      when the key holds a non-empty text that parses; otherwise, missing
      key, empty text or a parse error, left as it was. */
  function Loaded(current: Option<Object>, storage: Storage, parse: Parse): (r: Option<Object>)
    ensures StorageKey !in storage ==> r == current
    ensures StorageKey in storage && storage[StorageKey] == "" ==> r == current
    ensures StorageKey in storage && parse(storage[StorageKey]).None? ==> r == current
    ensures StorageKey in storage && storage[StorageKey] != "" && parse(storage[StorageKey]).Some? ==>
      r == parse(storage[StorageKey]).value
  {
    if StorageKey in storage && storage[StorageKey] != "" then
      match parse(storage[StorageKey])
      case Some(parsed) => parsed
      case None => current
    else current
  }

  /** Storage after setFormData: the key holds the record's text; every
      other key is as it was. */
  function Saved(storage: Storage, data: Object, stringify: Stringify): (r: Storage)
    ensures StorageKey in r && r[StorageKey] == stringify(data)
    ensures r.Keys == storage.Keys + {StorageKey}
    ensures forall k :: k in storage && k != StorageKey ==> r[k] == storage[k]
  {
    storage[StorageKey := stringify(data)]
  }

  /** Saving the same record twice is saving it once. */
  lemma SaveIdempotent(storage: Storage, data: Object, stringify: Stringify)
    ensures Saved(Saved(storage, data, stringify), data, stringify) == Saved(storage, data, stringify)
  {
  }

  /** The last save wins: nothing of an earlier save is left. */
  lemma LastSaveWins(storage: Storage, first: Object, second: Object, stringify: Stringify)
    ensures Saved(Saved(storage, first, stringify), second, stringify) == Saved(storage, second, stringify)
  {
  }

  /** A missing, empty or unparsable stored text leaves the record null on a
      fresh start. */
  lemma LoadTolerant(storage: Storage, parse: Parse)
    requires StorageKey !in storage || storage[StorageKey] == "" || parse(storage[StorageKey]).None?
    ensures Loaded(None, storage, parse) == None
  {
  }

  // ---------------------------------------------------------------------
  // What survives JSON

  /** What JSON.parse(JSON.stringify(v)) gives for a property value. A
      FileList's only own properties are its indices, and a File has none,
      so a file list comes back as a plain object; every other value of the
      model comes back as it was. */
  function JsonImage(v: Value): (w: Value)
    ensures !w.Files?
    ensures !v.Files? ==> w == v
  {
    if v.Files? then PlainObject else v
  }

  /** What JSON.parse(JSON.stringify(d)) gives for a record: a property
      holding undefined is dropped, so it still reads as undefined, and
      every other property holds its value's image. */
  function JsonRecord(d: Object): (r: Object)
    ensures forall k :: Get(r, k) == JsonImage(Get(d, k))
  {
    map k | k in d && d[k] != Undefined :: JsonImage(d[k])
  }

  /** The browser's JSON for one record: the text is not empty, and parsing
      it gives the record's JSON image. */
  predicate JsonFaithful(stringify: Stringify, parse: Parse, data: Object) {
    stringify(data) != "" && parse(stringify(data)) == Some(Some(JsonRecord(data)))
  }

  /** A reload after a save finds the saved record's JSON image, whatever was
      in memory; a record holding no file list is found as it was saved. */
  lemma ReloadAfterSave(storage: Storage, current: Option<Object>, data: Object, stringify: Stringify, parse: Parse)
    requires JsonFaithful(stringify, parse, data)
    ensures Loaded(current, Saved(storage, data, stringify), parse) == Some(JsonRecord(data))
    ensures (forall k :: !Get(data, k).Files?) ==>
      forall k :: Get(Loaded(current, Saved(storage, data, stringify), parse).value, k) == Get(data, k)
  {
  }

  /** A record with its experience present and a file-list photo, saved and
      read back, still shows all three sections, but its photo has become a
      plain object: the page shows it as the text "[object Object]", and no
      longer as an attachment. */
  lemma ReloadTurnsPhotoIntoText(storage: Storage, d: Object, stringify: Stringify, parse: Parse)
    requires !ResultView.IsBlank(Get(d, FormSchema.Key(FormSchema.YearsOfExperience)))
    requires Get(d, FormSchema.Key(FormSchema.ProfilePhoto)).Files?
    requires JsonFaithful(stringify, parse, d)
    ensures var loaded := Loaded(None, Saved(storage, d, stringify), parse);
      && loaded.Some?
      && !ResultView.ShowsEverySection(loaded.value)
      && ResultView.ShowsSections(loaded.value,
           ResultView.Row(FormSchema.ProfilePhoto, ResultView.Text, ResultView.ObjectText))
  {
    ReloadAfterSave(storage, None, d, stringify, parse);
    var loaded := JsonRecord(d);
    assert Get(loaded, FormSchema.Key(FormSchema.ProfilePhoto)) == PlainObject;
    ResultView.AllSectionsShown(loaded);
    ResultView.PhotoRow([]);
  }

  /** A record that passed validation is shown with its photo as an
      attachment row; once saved and read back on the next start, its photo
      is shown as the text "[object Object]" instead. */
  lemma SavedRecordShownAfterReload(
    storage: Storage, candidate: Object, fc: FormSchema.FormatChecks, stringify: Stringify, parse: Parse)
    requires FormSchema.Validate(candidate, fc).Valid?
    requires JsonFaithful(stringify, parse, FormSchema.Validate(candidate, fc).data)
    ensures var d := FormSchema.Validate(candidate, fc).data;
      var loaded := Loaded(None, Saved(storage, d, stringify), parse);
      && ResultView.ShowsEverySection(d)
      && loaded.Some?
      && !ResultView.ShowsEverySection(loaded.value)
      && ResultView.ShowsSections(loaded.value,
           ResultView.Row(FormSchema.ProfilePhoto, ResultView.Text, ResultView.ObjectText))
  {
    ResultView.ValidRecordShowsAllSections(candidate, fc);
    ResultView.ValidRecordValuesPresent(candidate, fc);
    ReloadTurnsPhotoIntoText(storage, FormSchema.Validate(candidate, fc).data, stringify, parse);
  }

  /** The record with each file list replaced by the name the summary page
      shows for it: a record JSON carries without loss. */
  function PortableRecord(d: Object): (r: Object)
    ensures forall k :: !Get(r, k).Files?
    ensures forall k :: Get(d, k).Files? ==> Get(r, k) == Str(ResultView.AttachmentName(Get(d, k).files))
    ensures forall k :: !Get(d, k).Files? ==> Get(r, k) == Get(d, k)
  {
    map k | k in d :: if d[k].Files? then Str(ResultView.AttachmentName(d[k].files)) else d[k]
  }

  /** Saving the portable record of a record with its experience present
      and a file-list photo, a reload gives back exactly what was saved, and
      the page shows all three sections with the photo's file name. */
  lemma PortableReloadKeepsPhotoName(storage: Storage, d: Object, stringify: Stringify, parse: Parse)
    requires !ResultView.IsBlank(Get(d, FormSchema.Key(FormSchema.YearsOfExperience)))
    requires Get(d, FormSchema.Key(FormSchema.ProfilePhoto)).Files?
    requires JsonFaithful(stringify, parse, PortableRecord(d))
    ensures var loaded := Loaded(None, Saved(storage, PortableRecord(d), stringify), parse);
      && loaded.Some?
      && (forall k :: Get(loaded.value, k) == Get(PortableRecord(d), k))
      && ResultView.ShowsSections(loaded.value,
           ResultView.Row(FormSchema.ProfilePhoto, ResultView.Text,
             ResultView.AttachmentName(Get(d, FormSchema.Key(FormSchema.ProfilePhoto)).files)))
  {
    var saved := PortableRecord(d);
    ReloadAfterSave(storage, None, saved, stringify, parse);
    var loaded := JsonRecord(saved);
    var photo := Get(d, FormSchema.Key(FormSchema.ProfilePhoto));
    assert Get(loaded, FormSchema.Key(FormSchema.ProfilePhoto)) == Str(ResultView.AttachmentName(photo.files));
    ResultView.AllSectionsShown(loaded);
  }

  /** Saving the portable record of a validated record instead, the summary
      page after a reload still names the photo's file: the very name it
      showed, as an attachment, before the reload. */
  lemma PortableRecordShownAfterReload(
    storage: Storage, candidate: Object, fc: FormSchema.FormatChecks, stringify: Stringify, parse: Parse)
    requires FormSchema.Validate(candidate, fc).Valid?
    requires JsonFaithful(stringify, parse, PortableRecord(FormSchema.Validate(candidate, fc).data))
    ensures var d := FormSchema.Validate(candidate, fc).data;
      var loaded := Loaded(None, Saved(storage, PortableRecord(d), stringify), parse);
      var photo := Get(d, FormSchema.Key(FormSchema.ProfilePhoto));
      && ResultView.ShowsEverySection(d)
      && photo.Files?
      && loaded.Some?
      && ResultView.ShowsSections(loaded.value,
           ResultView.Row(FormSchema.ProfilePhoto, ResultView.Text, ResultView.AttachmentName(photo.files)))
  {
    ResultView.ValidRecordShowsAllSections(candidate, fc);
    ResultView.ValidRecordValuesPresent(candidate, fc);
    PortableReloadKeepsPhotoName(storage, FormSchema.Validate(candidate, fc).data, stringify, parse);
  }

  // ---------------------------------------------------------------------
  // The provider

  /** The FormProvider component: its formData state and the storage it
      reads once on mount and writes on every save. */
  class FormProvider {
    var formData: Option<Object>
    var storage: Storage

    /** The first render: no record yet, whatever the storage holds. */
    constructor (initialStorage: Storage)
      ensures formData == None && storage == initialStorage
    {
      formData := None;
      storage := initialStorage;
    }

    /** The load-on-mount effect: reads the key, never writes storage. Reading the storage happens outside the parse
        guard: when the storage refuses the read (`storageReadable` false)
        the read throws out of the effect before anything is set. */
    method LoadStored(parse: Parse, storageReadable: bool) returns (thrown: bool)
      modifies this
      ensures thrown == !storageReadable
      ensures formData == if storageReadable then Loaded(old(formData), old(storage), parse) else old(formData)
      ensures storage == old(storage)
    {
      if !storageReadable {
        return true;
      }
      thrown := false;
      if StorageKey in storage {
        var stored := storage[StorageKey];
        if stored != "" {
          var parsed := parse(stored);
          if parsed.Some? {
            formData := parsed.value;
          }
        }
      }
    }

    /** setFormData: the record in memory first, then its text in storage.
        storageAccepts is the browser's answer to the write; when it refuses
        (setItem throws, over quota for instance), the record in memory is
        already replaced, storage keeps its old text, and the exception
        reaches the caller. */
    method SetFormData(data: Object, stringify: Stringify, storageAccepts: bool) returns (thrown: bool)
      modifies this
      ensures formData == Some(data)
      ensures thrown == !storageAccepts
      ensures storage == if storageAccepts then Saved(old(storage), data, stringify) else old(storage)
    {
      formData := Some(data);
      thrown := !storageAccepts;
      if storageAccepts {
        storage := storage[StorageKey := stringify(data)];
      }
    }
  }

  // ---------------------------------------------------------------------
  // useFormContext

  datatype Result<T> = Success(value: T) | Failure(error: string)

  const OutsideProviderError := "useFormContext must be used within a FormProvider"

  /** The context value, or the error thrown outside a provider. */
  function UseFormContext<T>(context: Option<T>): (r: Result<T>)
    ensures r.Success? <==> context.Some?
    ensures r.Success? ==> r.value == context.value
    ensures r.Failure? ==> r.error == OutsideProviderError
  {
    match context
    case Some(c) => Success(c)
    case None => Failure(OutsideProviderError)
  }
}

=== FILE: form_schema.dfy ===
/** The registration schema: one fixed rule set per field, applied to a
    candidate record (a plain object whose properties may be missing or of
    the wrong type). Validation succeeds with the record's schema properties,
    or fails with one issue per failing field: the first issue the field's
    rules raised, which is the one the form shows under the field. */
module FormSchema {
  import opened Js

  const MaxFileSize: nat := 5000000
  const AcceptedImageTypes: seq<string> := ["image/jpeg", "image/jpg", "image/png", "image/webp"]
  const Genders: seq<string> := ["male", "female", "other"]
  const MinNameLength: nat := 3
  const MaxBioLength: nat := 500
  const MinYears: int := 0
  const MaxYears: int := 50

  datatype Field =
    | FullName | Email | Gender | BirthDate | ProfilePhoto
    | YearsOfExperience | Skills | Bio | AgreeToTerms

  /** The fields in declaration order. */
  const Fields: seq<Field> :=
    [FullName, Email, Gender, BirthDate, ProfilePhoto, YearsOfExperience, Skills, Bio, AgreeToTerms]

  /** The property name of each field in the record. */
  function Key(f: Field): string {
    match f
    case FullName => "fullName"
    case Email => "email"
    case Gender => "gender"
    case BirthDate => "birthDate"
    case ProfilePhoto => "profilePhoto"
    case YearsOfExperience => "yearsOfExperience"
    case Skills => "skills"
    case Bio => "bio"
    case AgreeToTerms => "agreeToTerms"
  }

  const SchemaKeys: set<string> :=
    {"fullName", "email", "gender", "birthDate", "profilePhoto", "yearsOfExperience", "skills", "bio", "agreeToTerms"}

  const FieldSet: set<Field> :=
    {FullName, Email, Gender, BirthDate, ProfilePhoto, YearsOfExperience, Skills, Bio, AgreeToTerms}

  /** Every field is listed, under its own key. */
  lemma FieldsComplete(f: Field)
    ensures f in FieldSet && f in Fields && Key(f) in SchemaKeys
    ensures forall g :: Key(g) == Key(f) ==> g == f
  {
  }

  /** What a rule can object to. Required and InvalidType are the validation
      library's own type checks (a missing value, a value of the wrong type). */
  datatype Issue =
    | Required
    | InvalidType
    | NameTooShort
    | InvalidEmail
    | InvalidEnumValue
    | InvalidDate
    | PhotoRequired
    | PhotoTooLarge
    | PhotoWrongType
    | TooSmall
    | TooBig
    | NoSkills
    | BioTooLong
    | TermsNotAccepted

  /** The message the schema itself gives an issue; None where the schema
      leaves the wording to the validation library. */
  function Message(i: Issue): (text: Option<string>)
    ensures text.None? <==> i in {Required, InvalidType, InvalidEnumValue, TooSmall, TooBig}
    ensures text.Some? ==> |text.value| > 0
  {
    match i
    case NameTooShort => Some("Full name must be at least 3 characters")
    case InvalidEmail => Some("Invalid email address")
    case InvalidDate => Some("Valid date is required")
    case PhotoRequired => Some("Profile photo is required.")
    case PhotoTooLarge => Some("Max file size is 5MB.")
    case PhotoWrongType => Some(".jpg, .jpeg, .png and .webp files are accepted.")
    case NoSkills => Some("Select at least one skill")
    case BioTooLong => Some("Bio must be less than 500 characters")
    case TermsNotAccepted => Some("You must agree to the terms")
    case _ => None
  }

  /** The two checks the schema delegates to library code that is not part
      of this model: email syntax, and whether a string denotes a date. */
  datatype FormatChecks = FormatChecks(isEmail: string -> bool, isDate: string -> bool)

  /** A string type check followed by one more rule. */
  function StringRule(v: Value, ok: string -> bool, issue: Issue): (issues: seq<Issue>)
    ensures issues == [] <==> v.Str? && ok(v.s)
    ensures v == Undefined ==> issues == [Required]
    ensures v.Str? && !ok(v.s) ==> issues == [issue]
    ensures |issues| <= 1
  {
    match v
    case Undefined => [Required]
    case Str(s) => if ok(s) then [] else [issue]
    case _ => [InvalidType]
  }

  function FullNameIssues(v: Value): (issues: seq<Issue>)
    ensures issues == [] <==> v.Str? && |v.s| >= MinNameLength
  {
    StringRule(v, s => |s| >= MinNameLength, NameTooShort)
  }

  function GenderIssues(v: Value): (issues: seq<Issue>)
    ensures issues == [] <==> v.Str? && v.s in Genders
    ensures v == Undefined ==> issues == [Required]
    ensures v.Str? && v.s !in Genders ==> issues == [InvalidEnumValue]
    ensures |issues| <= 1
  {
    match v
    case Undefined => [Required]
    case Str(s) => if s in Genders then [] else [InvalidEnumValue]
    case _ => [InvalidType]
  }

  /** The three photo refinements all run (a failed refinement does not stop
      the next one), each with its own issue, in declared order: exactly one
      entry, the first entry within the size limit, the first entry of an
      accepted type. A value that is not a file list fails the two later
      checks, since its first entry has neither a size nor a type. */
  function PhotoIssues(v: Value): (issues: seq<Issue>)
    ensures issues == [] <==>
      v.Files? && |v.files| == 1 && v.files[0].size <= MaxFileSize && v.files[0].mimeType in AcceptedImageTypes
    ensures (|issues| > 0 && issues[0] == PhotoRequired) <==> Length(v) != Some(1)
    ensures PhotoRequired in issues <==> Length(v) != Some(1)
    ensures PhotoTooLarge in issues <==> FirstFile(v).None? || FirstFile(v).value.size > MaxFileSize
    ensures PhotoWrongType in issues <==> FirstFile(v).None? || FirstFile(v).value.mimeType !in AcceptedImageTypes
    ensures forall i, j :: 0 <= i < j < |issues| ==> PhotoRank(issues[i]) < PhotoRank(issues[j])
  {
    (if Length(v) == Some(1) then [] else [PhotoRequired])
    + (match FirstFile(v) case Some(f) => if f.size <= MaxFileSize then [] else [PhotoTooLarge] case None => [PhotoTooLarge])
    + (match FirstFile(v) case Some(f) => if f.mimeType in AcceptedImageTypes then [] else [PhotoWrongType] case None => [PhotoWrongType])
  }

  /** The position of a photo issue among the photo refinements. */
  function PhotoRank(i: Issue): nat {
    match i
    case PhotoRequired => 0
    case PhotoTooLarge => 1
    case _ => 2
  }

  /** A number check followed by the lower and the upper bound; both bounds
      are checked, and at most one of them can fail. */
  function YearsIssues(v: Value): (issues: seq<Issue>)
    ensures issues == [] <==> v.Num? && MinYears <= v.n <= MaxYears
    ensures v.Num? && v.n < MinYears ==> issues == [TooSmall]
    ensures v.Num? && v.n > MaxYears ==> issues == [TooBig]
  {
    match v
    case Undefined => [Required]
    case Num(n) => (if n < MinYears then [TooSmall] else []) + (if n > MaxYears then [TooBig] else [])
    case _ => [InvalidType]
  }

  function SkillsIssues(v: Value): (issues: seq<Issue>)
    ensures issues == [] <==> v.Strs? && |v.items| >= 1
    ensures v == Strs([]) ==> issues == [NoSkills]
  {
    match v
    case Undefined => [Required]
    case Strs(items) => if |items| >= 1 then [] else [NoSkills]
    case _ => [InvalidType]
  }

  /** The bio is optional: a missing bio passes; null does not. */
  function BioIssues(v: Value): (issues: seq<Issue>)
    ensures issues == [] <==> v == Undefined || (v.Str? && |v.s| <= MaxBioLength)
    ensures v.Str? && |v.s| > MaxBioLength ==> issues == [BioTooLong]
    ensures v != Undefined && !v.Str? ==> issues == [InvalidType]
  {
    match v
    case Undefined => []
    case Str(s) => if |s| <= MaxBioLength then [] else [BioTooLong]
    case _ => [InvalidType]
  }

  function TermsIssues(v: Value): (issues: seq<Issue>)
    ensures issues == [] <==> v == Bool(true)
    ensures v == Bool(false) ==> issues == [TermsNotAccepted]
  {
    match v
    case Undefined => [Required]
    case Bool(b) => if b then [] else [TermsNotAccepted]
    case _ => [InvalidType]
  }

  /** Every issue the rules of field f raise against value v, in order.
      The photo is the only field whose rules can raise several issues. */
  function Issues(f: Field, v: Value, fc: FormatChecks): (issues: seq<Issue>)
    ensures f != ProfilePhoto ==> |issues| <= 1
    ensures |issues| <= 3
  {
    match f
    case FullName => FullNameIssues(v)
    case Email => StringRule(v, fc.isEmail, InvalidEmail)
    case Gender => GenderIssues(v)
    case BirthDate => StringRule(v, fc.isDate, InvalidDate)
    case ProfilePhoto => PhotoIssues(v)
    case YearsOfExperience => YearsIssues(v)
    case Skills => SkillsIssues(v)
    case Bio => BioIssues(v)
    case AgreeToTerms => TermsIssues(v)
  }

  predicate FieldPasses(candidate: Object, f: Field, fc: FormatChecks) {
    Issues(f, Get(candidate, Key(f)), fc) == []
  }

  datatype Outcome = Valid(data: Object) | Invalid(errors: map<Field, Issue>)

  /** The first issue of each failing field: a field has an entry exactly
      when it fails. */
  function Errors(candidate: Object, fc: FormatChecks): (errors: map<Field, Issue>)
    ensures forall f :: f in errors <==> !FieldPasses(candidate, f, fc)
    ensures forall f :: f in errors ==>
      !FieldPasses(candidate, f, fc) && errors[f] == Issues(f, Get(candidate, Key(f)), fc)[0]
  {
    assert forall f :: f in FieldSet by {
      forall f ensures f in FieldSet {
        FieldsComplete(f);
      }
    }
    map f | f in FieldSet && !FieldPasses(candidate, f, fc) :: Issues(f, Get(candidate, Key(f)), fc)[0]
  }

  /** The candidate's schema properties; any other property is dropped, and
      every schema field reads as it did. */
  function SchemaPart(candidate: Object): (part: Object)
    ensures part.Keys <= SchemaKeys
    ensures forall k :: k in part ==> k in candidate && part[k] == candidate[k]
    ensures forall f :: Get(part, Key(f)) == Get(candidate, Key(f))
  {
    assert forall f :: Key(f) in SchemaKeys by {
      forall f ensures Key(f) in SchemaKeys {
        FieldsComplete(f);
      }
    }
    map k | k in candidate && k in SchemaKeys :: candidate[k]
  }

  /** Validation: fields are checked independently; the record is valid
      exactly when every field passes, and otherwise each failing field, and
      no other, reports the first issue its rules raised. */
  function Validate(candidate: Object, fc: FormatChecks): (r: Outcome)
    ensures r.Valid? <==> forall f :: FieldPasses(candidate, f, fc)
    ensures r.Invalid? ==> forall f :: (f in r.errors <==> !FieldPasses(candidate, f, fc))
    ensures r.Invalid? ==> forall f :: f in r.errors ==> r.errors[f] == Issues(f, Get(candidate, Key(f)), fc)[0]
    ensures r.Valid? ==> r.data.Keys <= SchemaKeys
    ensures r.Valid? ==> forall f :: Get(r.data, Key(f)) == Get(candidate, Key(f))
  {
    var errors := Errors(candidate, fc);
    ErrorsEmpty(candidate, fc);
    if errors == map[] then Valid(SchemaPart(candidate)) else Invalid(errors)
  }

  lemma ErrorsEmpty(candidate: Object, fc: FormatChecks)
    ensures Errors(candidate, fc) == map[] <==> forall f :: FieldPasses(candidate, f, fc)
  {
    if forall f :: FieldPasses(candidate, f, fc) {
      assert Errors(candidate, fc).Keys == {};
    }
  }

  /** A validated record validates again, to itself. */
  lemma RevalidateValid(candidate: Object, fc: FormatChecks)
    requires Validate(candidate, fc).Valid?
    ensures Validate(Validate(candidate, fc).data, fc) == Validate(candidate, fc)
  {
    var data := Validate(candidate, fc).data;
    assert SchemaPart(data) == data;
  }

  /** A missing value fails every field except the optional bio; the photo
      reports all three of its refinements. */
  lemma MissingValueIssues(f: Field, fc: FormatChecks)
    ensures Issues(f, Undefined, fc) ==
      if f == Bio then []
      else if f == ProfilePhoto then [PhotoRequired, PhotoTooLarge, PhotoWrongType]
      else [Required]
  {
  }

  /** Removing one property does not change how the other fields fare. */
  lemma OtherFieldsUnaffected(candidate: Object, f: Field, g: Field, fc: FormatChecks)
    requires g != f
    ensures FieldPasses(candidate - {Key(f)}, g, fc) == FieldPasses(candidate, g, fc)
  {
    FieldsComplete(g);
    assert Key(f) != Key(g);
    assert Get(candidate - {Key(f)}, Key(g)) == Get(candidate, Key(g));
  }

  /** When one field alone fails, the errors name that field alone. */
  lemma SingleFailure(candidate: Object, f: Field, fc: FormatChecks)
    requires !FieldPasses(candidate, f, fc)
    requires forall g :: g != f ==> FieldPasses(candidate, g, fc)
    ensures Errors(candidate, fc) == map[f := Issues(f, Get(candidate, Key(f)), fc)[0]]
  {
    var errors := Errors(candidate, fc);
    assert forall g :: g in errors ==> g == f;
    OnlyKey(errors, f);
  }

  /** A map whose only key is k. */
  lemma OnlyKey<K, V>(m: map<K, V>, k: K)
    requires k in m && forall j :: j in m ==> j == k
    ensures m == map[k := m[k]]
  {
  }

  /** Taking one required field away from a valid record fails that field
      alone, with the library's "required" issue (the photo's own message
      for the photo); taking the optional bio away leaves the record valid. */
  lemma MissingFieldReportedAlone(candidate: Object, f: Field, fc: FormatChecks)
    requires Validate(candidate, fc).Valid?
    ensures var r := Validate(candidate - {Key(f)}, fc);
      if f == Bio then r.Valid?
      else r == Invalid(map[f := if f == ProfilePhoto then PhotoRequired else Required])
  {
    var c' := candidate - {Key(f)};
    forall g | g != f
      ensures FieldPasses(c', g, fc)
    {
      OtherFieldsUnaffected(candidate, f, g, fc);
    }
    assert Get(c', Key(f)) == Undefined;
    MissingValueIssues(f, fc);
    if f != Bio {
      SingleFailure(c', f, fc);
    }
  }

  /** The boundary cases of the rules. */
  lemma NameAndYearBoundaries()
    ensures FullNameIssues(Str("ab")) == [NameTooShort] && FullNameIssues(Str("abc")) == []
    ensures YearsIssues(Num(-1)) == [TooSmall] && YearsIssues(Num(0)) == []
    ensures YearsIssues(Num(50)) == [] && YearsIssues(Num(51)) == [TooBig]
    ensures YearsIssues(Str("")) == [InvalidType]
  {
  }

  /** A photo of an accepted type passes at exactly the size limit and
      fails one byte above it, with the size message alone. */
  lemma PhotoSizeBoundary(name: string, mimeType: string)
    requires mimeType in AcceptedImageTypes
    ensures PhotoIssues(Files([File(name, MaxFileSize, mimeType)])) == []
    ensures PhotoIssues(Files([File(name, MaxFileSize + 1, mimeType)])) == [PhotoTooLarge]
  {
  }

  /** A GIF within the size limit fails with the type message alone. */
  lemma GifRejected(name: string, size: nat)
    requires size <= MaxFileSize
    ensures PhotoIssues(Files([File(name, size, "image/gif")])) == [PhotoWrongType]
  {
    assert "image/gif" !in AcceptedImageTypes by {
      assert "image/gif"[6] == 'g';
      assert "image/gif" != AcceptedImageTypes[1] && "image/gif" != AcceptedImageTypes[2];
    }
    var v := Files([File(name, size, "image/gif")]);
    assert Length(v) == Some(1) && FirstFile(v) == Some(File(name, size, "image/gif"));
  }

  /** With no file at all, every photo refinement fails, and the message
      shown is the first: "Profile photo is required.". */
  lemma NoPhoto(v: Value)
    requires v == Undefined || v == Null || v == Files([])
    ensures PhotoIssues(v) == [PhotoRequired, PhotoTooLarge, PhotoWrongType]
    ensures Message(PhotoIssues(v)[0]) == Some("Profile photo is required.")
  {
  }

  lemma OtherBoundaries(bio500: string, bio501: string)
    requires |bio500| == 500 && |bio501| == 501
    ensures BioIssues(Str(bio500)) == [] && BioIssues(Str(bio501)) == [BioTooLong]
    ensures SkillsIssues(Strs([])) == [NoSkills] && SkillsIssues(Strs(["React"])) == []
    ensures TermsIssues(Bool(false)) == [TermsNotAccepted] && TermsIssues(Bool(true)) == []
    ensures GenderIssues(Str("male")) == [] && GenderIssues(Str("Male")) == [InvalidEnumValue]
  {
  }
}

=== FILE: js.dfy ===
/** The JavaScript values the registration form handles, and the few built-in
    conversions and string operations its components rely on. */
module Js {

  datatype Option<T> = None | Some(value: T)

  /** A browser File: its name, its size in bytes and its declared MIME type
      (File.type). */
  datatype File = File(name: string, size: nat, mimeType: string)

  /** The values a form field or a stored record property can hold.
      Numbers are integers here; Strs is an Array of strings, Files a
      FileList, and PlainObject any other object, such as the {"0": {}} that
      JSON.parse gives back for a FileList. */
  datatype Value =
    | Undefined
    | Null
    | Bool(b: bool)
    | Num(n: int)
    | Str(s: string)
    | Strs(items: seq<string>)
    | Files(files: seq<File>)
    | PlainObject

  /** A plain object, by property name. */
  type Object = map<string, Value>

  /** obj[key]: a missing property reads as undefined. */
  function Get(obj: Object, key: string): (v: Value)
    ensures v == Undefined <==> key !in obj || obj[key] == Undefined
    ensures v != Undefined ==> key in obj && obj[key] == v
  {
    if key in obj then obj[key] else Undefined
  }

  /** ToBoolean: undefined, null, false, 0 and "" are the falsy values;
      every object, an empty array included, is truthy. */
  function Truthy(v: Value): (t: bool)
    ensures !t <==> v in {Undefined, Null, Bool(false), Num(0), Str("")}
  {
    match v
    case Undefined => false
    case Null => false
    case Bool(b) => b
    case Num(n) => n != 0
    case Str(s) => s != ""
    case Strs(_) => true
    case Files(_) => true
    case PlainObject => true
  }

  /** v?.length: strings, arrays and file lists have a length, nothing else does. */
  function Length(v: Value): (n: Option<nat>)
    ensures n.Some? <==> v.Str? || v.Strs? || v.Files?
    ensures v.Files? ==> n == Some(|v.files|)
    ensures v.Strs? ==> n == Some(|v.items|)
  {
    match v
    case Str(s) => Some(|s|)
    case Strs(items) => Some(|items|)
    case Files(files) => Some(|files|)
    case _ => None
  }

  /** v?.[0] when that is a File; the first element of a string or of an
      array of strings is no File, and reading a file property off it gives
      undefined. */
  function FirstFile(v: Value): (f: Option<File>)
    ensures f.Some? <==> v.Files? && |v.files| > 0
    ensures f.Some? ==> f.value == v.files[0]
  {
    if v.Files? && |v.files| > 0 then Some(v.files[0]) else None
  }

  // ---------------------------------------------------------------------
  // Number.prototype.toString for integers

  predicate IsDigit(c: char) {
    '0' <= c <= '9'
  }

  predicate AllDigits(s: string) {
    forall i :: 0 <= i < |s| ==> IsDigit(s[i])
  }

  function DigitChar(d: nat): (c: char)
    requires d < 10
    ensures IsDigit(c) && c as int - '0' as int == d
  {
    (d + '0' as int) as char
  }

  /** The decimal digits of n, without leading zeros. */
  function DecimalString(n: nat): (s: string)
    ensures |s| > 0 && AllDigits(s)
    ensures s[0] == '0' ==> n == 0
    decreases n
  {
    if n < 10 then [DigitChar(n)] else DecimalString(n / 10) + [DigitChar(n % 10)]
  }

  /** The number a string of decimal digits denotes. */
  function DigitsValue(s: string): nat
    requires AllDigits(s)
  {
    if s == [] then 0
    else 10 * DigitsValue(s[..|s| - 1]) + (s[|s| - 1] as int - '0' as int)
  }

  /** Reading the digits back gives the number. */
  lemma {:induction false} DecimalRoundTrip(n: nat)
    ensures DigitsValue(DecimalString(n)) == n
  {
    if n >= 10 {
      var s := DecimalString(n);
      assert s[..|s| - 1] == DecimalString(n / 10);
      DecimalRoundTrip(n / 10);
    }
  }

  /** Different numbers are written differently. */
  lemma DecimalInjective(a: nat, b: nat)
    requires DecimalString(a) == DecimalString(b)
    ensures a == b
  {
    DecimalRoundTrip(a);
    DecimalRoundTrip(b);
  }

  /** Two digit strings each followed by a non-digit: if the results agree,
      so do the digit strings. */
  lemma {:induction false} DigitPrefixDetermined(d1: string, x1: string, d2: string, x2: string)
    requires AllDigits(d1) && AllDigits(d2)
    requires |x1| > 0 && !IsDigit(x1[0]) && |x2| > 0 && !IsDigit(x2[0])
    requires d1 + x1 == d2 + x2
    ensures d1 == d2 && x1 == x2
  {
    if |d1| < |d2| {
      CharAfterPrefix(d1, x1, d2, x2);
      assert false;
    } else if |d2| < |d1| {
      CharAfterPrefix(d2, x2, d1, x1);
      assert false;
    }
    assert d1 == (d1 + x1)[..|d1|];
    assert d2 == (d2 + x2)[..|d2|];
    assert x1 == (d1 + x1)[|d1|..];
    assert x2 == (d2 + x2)[|d2|..];
  }

  /** The character just past the shorter digit string: a non-digit on one
      side, a digit on the other. */
  lemma CharAfterPrefix(d1: string, x1: string, d2: string, x2: string)
    requires AllDigits(d2) && |d1| < |d2| && |x1| > 0
    ensures (d1 + x1)[|d1|] == x1[0] && IsDigit((d2 + x2)[|d1|])
  {
  }

  /** String(n) for an integer n. */
  function NumberString(n: int): (s: string)
    ensures |s| > 0 && (s[0] == '-' <==> n < 0)
  {
    if n < 0 then "-" + DecimalString(-n) else DecimalString(n)
  }

  /** Different integers are written differently. */
  lemma NumberStringInjective(a: int, b: int)
    requires NumberString(a) == NumberString(b)
    ensures a == b
  {
    if a < 0 {
      assert DecimalString(-a) == NumberString(a)[1..];
      assert DecimalString(-b) == NumberString(b)[1..];
      DecimalInjective(-a, -b);
    } else {
      DecimalInjective(a, b);
    }
  }

  // ---------------------------------------------------------------------
  // Array.prototype.join

  /** items.join(sep): the first item leads, and with a non-empty
      separator the text is empty only for no items or one empty item. */
  function Join(items: seq<string>, sep: string): (r: string)
    ensures |items| > 0 ==> items[0] <= r
    ensures sep != "" ==> (r == "" <==> items == [] || items == [""])
    decreases |items|
  {
    if |items| == 0 then ""
    else if |items| == 1 then items[0]
    else items[0] + sep + Join(items[1..], sep)
  }

  /** Joining keeps the items in order: the join of a concatenation is the
      join of its two halves, separated once. */
  lemma {:induction false} JoinAppend(xs: seq<string>, ys: seq<string>, sep: string)
    requires |xs| > 0 && |ys| > 0
    ensures Join(xs + ys, sep) == Join(xs, sep) + sep + Join(ys, sep)
    decreases |xs|
  {
    if |xs| == 1 {
      assert (xs + ys)[1..] == ys;
    } else {
      assert (xs + ys)[1..] == xs[1..] + ys;
      JoinAppend(xs[1..], ys, sep);
    }
  }

  // ---------------------------------------------------------------------
  // String.prototype.trim

  /** The characters trim removes: WhiteSpace and LineTerminator of
      section 12.2 and 12.3 of ECMA-262 (the Zs category in full). */
  predicate IsWhitespace(c: char) {
    c == '\t' || c == '\n' || c == '\U{0B}' || c == '\U{0C}' || c == '\r' || c == ' '
    || c == '\U{A0}' || c == '\U{1680}' || ('\U{2000}' <= c <= '\U{200A}')
    || c == '\U{2028}' || c == '\U{2029}' || c == '\U{202F}' || c == '\U{205F}'
    || c == '\U{3000}' || c == '\U{FEFF}'
  }

  predicate AllWhitespace(s: string) {
    forall i :: 0 <= i < |s| ==> IsWhitespace(s[i])
  }

  /** s without its leading whitespace: a suffix of s that does not start
      with whitespace and whose removed part is all whitespace. */
  function TrimStart(s: string): (r: string)
    ensures |r| <= |s| && r == s[|s| - |r|..]
    ensures r == [] || !IsWhitespace(r[0])
    ensures AllWhitespace(s[..|s| - |r|])
    decreases |s|
  {
    if s != [] && IsWhitespace(s[0]) then
      var r := TrimStart(s[1..]);
      assert s[..|s| - |r|] == [s[0]] + s[1..][..|s| - 1 - |r|];
      r
    else s
  }

  /** s without its trailing whitespace: a prefix of s that does not end
      with whitespace and whose removed part is all whitespace. */
  function TrimEnd(s: string): (r: string)
    ensures |r| <= |s| && r == s[..|r|]
    ensures r == [] || !IsWhitespace(r[|r| - 1])
    ensures AllWhitespace(s[|r|..])
    decreases |s|
  {
    if s != [] && IsWhitespace(s[|s| - 1]) then
      var r := TrimEnd(s[..|s| - 1]);
      assert s[|r|..] == s[..|s| - 1][|r|..] + [s[|s| - 1]];
      r
    else s
  }

  /** s without leading and trailing whitespace: a slice of s that neither
      starts nor ends with whitespace, empty when s is all whitespace. */
  function Trim(s: string): (r: string)
    ensures |r| <= |s|
    ensures r == [] || (!IsWhitespace(r[0]) && !IsWhitespace(r[|r| - 1]))
    ensures AllWhitespace(s) <==> r == []
  {
    var t := TrimStart(s);
    var r := TrimEnd(t);
    assert r != [] ==> r[0] == t[0];
    assert t == [] ==> s == s[..|s| - |t|];
    assert t != [] ==> t[0] == s[|s| - |t|];
    r
  }

  /** s with every whitespace character dropped. */
  function RemoveWhitespace(s: string): string
    decreases |s|
  {
    if s == [] then []
    else (if IsWhitespace(s[0]) then [] else [s[0]]) + RemoveWhitespace(s[1..])
  }

  lemma {:induction false} RemoveWhitespaceAppend(a: string, b: string)
    ensures RemoveWhitespace(a + b) == RemoveWhitespace(a) + RemoveWhitespace(b)
    decreases |a|
  {
    if a == [] {
      assert a + b == b;
    } else {
      assert (a + b)[1..] == a[1..] + b;
      RemoveWhitespaceAppend(a[1..], b);
    }
  }

  lemma {:induction false} RemoveWhitespaceOfBlank(s: string)
    requires AllWhitespace(s)
    ensures RemoveWhitespace(s) == []
    decreases |s|
  {
    if s != [] {
      RemoveWhitespaceOfBlank(s[1..]);
    }
  }

  lemma TrimStartKeepsNonWhitespace(s: string)
    ensures RemoveWhitespace(TrimStart(s)) == RemoveWhitespace(s)
  {
    var t := TrimStart(s);
    var k := |s| - |t|;
    assert s == s[..k] + t;
    RemoveWhitespaceAppend(s[..k], t);
    RemoveWhitespaceOfBlank(s[..k]);
  }

  lemma TrimEndKeepsNonWhitespace(s: string)
    ensures RemoveWhitespace(TrimEnd(s)) == RemoveWhitespace(s)
  {
    var u := TrimEnd(s);
    assert s == u + s[|u|..];
    RemoveWhitespaceAppend(u, s[|u|..]);
    RemoveWhitespaceOfBlank(s[|u|..]);
  }

  /** Trimming removes whitespace only. */
  lemma TrimKeepsNonWhitespace(s: string)
    ensures RemoveWhitespace(Trim(s)) == RemoveWhitespace(s)
  {
    TrimStartKeepsNonWhitespace(s);
    TrimEndKeepsNonWhitespace(TrimStart(s));
  }
}

=== FILE: multi_select.dfy ===
/** The skills multi-select: a list of selected options that a toggle
    (from the dropdown) and a remove (from a chip) replace, the callback that
    receives every new list, and the summary label on the dropdown button. */
module MultiSelectField {
  import opened Js

  /** s.filter(item => item !== o). */
  function Without(s: seq<string>, o: string): (r: seq<string>)
    ensures forall x :: x in r <==> x in s && x != o
    ensures |r| <= |s|
    ensures o !in s ==> r == s
    decreases |s|
  {
    if s == [] then []
    else (if s[0] == o then [] else [s[0]]) + Without(s[1..], o)
  }

  /** The list toggleOption stores: without the option when it is selected,
      with it appended when it is not. Afterwards the option is selected
      exactly when it was not, and every other option is as it was. */
  function Toggled(s: seq<string>, o: string): (r: seq<string>)
    ensures forall x :: x in r <==> (x in s <==> x != o)
    ensures o !in s ==> |r| == |s| + 1 && r[..|s|] == s && r[|s|] == o
  {
    if o in s then Without(s, o) else s + [o]
  }

  /** Filtering keeps the relative order: it distributes over concatenation. */
  lemma {:induction false} WithoutAppend(a: seq<string>, b: seq<string>, o: string)
    ensures Without(a + b, o) == Without(a, o) + Without(b, o)
    decreases |a|
  {
    if a == [] {
      assert a + b == b;
    } else {
      assert (a + b)[1..] == a[1..] + b;
      WithoutAppend(a[1..], b, o);
    }
  }

  /** Filtering removes every occurrence of the option and keeps every
      occurrence of everything else. */
  lemma {:induction false} WithoutMultiset(s: seq<string>, o: string)
    ensures multiset(Without(s, o)) == multiset(s)[o := 0]
    decreases |s|
  {
    if s != [] {
      WithoutMultiset(s[1..], o);
      assert s == [s[0]] + s[1..];
    }
  }

  /** Toggling an unselected option twice restores the list. */
  lemma ToggleTwice(s: seq<string>, o: string)
    requires o !in s
    ensures Toggled(Toggled(s, o), o) == s
  {
    WithoutAppend(s, [o], o);
    assert Without([o], o) == [];
  }

  predicate NoDuplicates(s: seq<string>) {
    forall i, j :: 0 <= i < j < |s| ==> s[i] != s[j]
  }

  lemma {:induction false} WithoutKeepsNoDuplicates(s: seq<string>, o: string)
    requires NoDuplicates(s)
    ensures NoDuplicates(Without(s, o))
    decreases |s|
  {
    if s != [] {
      WithoutKeepsNoDuplicates(s[1..], o);
      assert s[0] !in s[1..];
    }
  }

  /** A list without repeats keeps none after a toggle or a remove. */
  lemma ToggleKeepsNoDuplicates(s: seq<string>, o: string)
    requires NoDuplicates(s)
    ensures NoDuplicates(Toggled(s, o)) && NoDuplicates(Without(s, o))
  {
    WithoutKeepsNoDuplicates(s, o);
  }

  const Placeholder := "Select skills..."

  /** The button text: a placeholder for no selection, otherwise the count
      with "skill" in the singular for one. A count is written out in full,
      followed by a space. */
  function CountLabel(n: nat): (text: string)
    ensures text == Placeholder <==> n == 0
    ensures n > 0 ==> DecimalString(n) < text && text[|DecimalString(n)|] == ' '
  {
    if n == 0 then Placeholder
    else
      var text := DecimalString(n) + " skill" + (if n > 1 then "s" else "") + " selected";
      assert text[0] == DecimalString(n)[0] && text[|DecimalString(n)|] == ' ';
      text
  }

  /** Different counts give different labels. */
  lemma CountLabelInjective(a: nat, b: nat)
    requires CountLabel(a) == CountLabel(b)
    ensures a == b
  {
    if a != 0 && b != 0 {
      var xa := " skill" + (if a > 1 then "s" else "") + " selected";
      var xb := " skill" + (if b > 1 then "s" else "") + " selected";
      assert CountLabel(a) == DecimalString(a) + xa;
      assert CountLabel(b) == DecimalString(b) + xb;
      DigitPrefixDetermined(DecimalString(a), xa, DecimalString(b), xb);
      DecimalInjective(a, b);
    }
  }

  /** The placeholder, and the singular for one skill. */
  lemma CountLabelNoneOrOne()
    ensures CountLabel(0) == Placeholder
    ensures CountLabel(1) == "1 skill selected"
  {
    assert DigitChar(1) == '1';
  }

  /** The plural from two skills on. */
  lemma CountLabelPlural(n: nat)
    requires n >= 2
    ensures CountLabel(n) == DecimalString(n) + " skills selected"
  {
  }

  /** The component's state: the selected options, in selection order. The
      optional onChange callback is modelled by its presence; each operation
      returns what the callback received, None when there is no callback. */
  class MultiSelect {
    var selected: seq<string>

    constructor ()
      ensures selected == []
    {
      selected := [];
    }

    /** The button text shows the placeholder exactly when nothing is
        selected. */
    function Label(): (text: string)
      reads this
      ensures text == Placeholder <==> selected == []
    {
      CountLabel(|selected|)
    }

    method ToggleOption(option: string, hasOnChange: bool) returns (received: Option<seq<string>>)
      modifies this
      ensures selected == Toggled(old(selected), option)
      ensures received == if hasOnChange then Some(selected) else None
    {
      var newSelected := if option in selected then Without(selected, option) else selected + [option];
      selected := newSelected;
      received := if hasOnChange then Some(newSelected) else None;
    }

    method RemoveOption(option: string, hasOnChange: bool) returns (received: Option<seq<string>>)
      modifies this
      ensures selected == Without(old(selected), option)
      ensures received == if hasOnChange then Some(selected) else None
    {
      var newSelected := Without(selected, option);
      selected := newSelected;
      received := if hasOnChange then Some(newSelected) else None;
    }
  }
}

=== FILE: result_page.dfy ===
/** The summary page: with no stored record, the "No Data Found" view;
    otherwise the record projected into three sections (personal,
    professional, additional), each shown only when one of its values is
    present, each present value shown as one labelled row. */
module ResultView {
  import opened Js
  import FormSchema

  /** An object literal: its properties in insertion order. Every property
      of the page's three groups is named after a schema field. */
  type Entries = seq<(FormSchema.Field, Value)>

  /** undefined, null and '' are never shown; 0 and false are. */
  predicate IsBlank(v: Value): (blank: bool)
    ensures blank <==> !Truthy(v) && !v.Bool? && !v.Num?
  {
    v == Undefined || v == Null || v == Str("")
  }

  datatype RowKind = Attachment | Text
  /** One dt/dd pair; the dt text is Caption(row). */
  datatype Row = Row(field: FormSchema.Field, kind: RowKind, text: string)
  /** The three groups of the page. */
  datatype Group = Personal | Professional | Additional
  datatype Section = Section(group: Group, rows: seq<Row>)
  datatype Page = NoDataFound | Registration(sections: seq<Section>)

  /** The heading of a section. */
  function Title(g: Group): string {
    match g
    case Personal => "Personal Information"
    case Professional => "Professional Info"
    case Additional => "Additional Information"
  }
  const Agreed := "✓ Agreed"
  const NotAgreed := "✗ Not Agreed"
  const NoFile := "No file"

  // ---------------------------------------------------------------------
  // Labels: key.replace(/([A-Z])/g, ' $1').trim()

  predicate IsUpper(c: char) {
    'A' <= c <= 'Z'
  }

  /** Every capital letter of s gets a space before it. */
  function SpaceBeforeCapitals(s: string): string
    decreases |s|
  {
    if s == [] then []
    else (if IsUpper(s[0]) then [' ', s[0]] else [s[0]]) + SpaceBeforeCapitals(s[1..])
  }

  /** The replace adds one space per capital, so the text grows by at most
      its own length. */
  lemma {:induction false} SpacingLength(s: string)
    ensures |s| <= |SpaceBeforeCapitals(s)| <= 2 * |s|
    decreases |s|
  {
    if s != [] {
      SpacingLength(s[1..]);
    }
  }

  /** Every capital after the first character follows a space. */
  predicate SpacedCapitals(r: string) {
    forall i :: 0 < i < |r| && IsUpper(r[i]) ==> r[i - 1] == ' '
  }

  /** The spaced string does not start with a capital, and every later
      capital follows a space. */
  lemma {:induction false} SpacingPrecedesCapitals(s: string)
    ensures var r := SpaceBeforeCapitals(s);
      SpacedCapitals(r) && (|r| > 0 ==> !IsUpper(r[0]))
    decreases |s|
  {
    if s != [] {
      SpacingPrecedesCapitals(s[1..]);
      var head := if IsUpper(s[0]) then [' ', s[0]] else [s[0]];
      var tail := SpaceBeforeCapitals(s[1..]);
      var r := head + tail;
      assert SpaceBeforeCapitals(s) == r;
      forall i | 0 < i < |r| && IsUpper(r[i])
        ensures r[i - 1] == ' '
      {
        if i >= |head| {
          var j := i - |head|;
          assert r[i] == tail[j];
          if j > 0 {
            assert r[i - 1] == tail[j - 1];
          }
        }
      }
    }
  }

  /** A slice keeps the spacing of its capitals. */
  lemma SliceKeepsSpacedCapitals(s: string, a: nat, b: nat)
    requires a <= b <= |s| && SpacedCapitals(s)
    ensures SpacedCapitals(s[a..b])
  {
    var t := s[a..b];
    forall i | 0 < i < |t| && IsUpper(t[i])
      ensures t[i - 1] == ' '
    {
      assert t[i] == s[a + i] && t[i - 1] == s[a + i - 1];
    }
  }

  /** The dt text of a property: every capital after the first character
      follows a space, and without its whitespace the text is the key's. */
  function KeyLabel(key: string): (caption: string)
    ensures SpacedCapitals(caption)
    ensures RemoveWhitespace(caption) == RemoveWhitespace(key)
  {
    var spaced := SpaceBeforeCapitals(key);
    SpacingPrecedesCapitals(key);
    TrimKeepsSpacedCapitals(spaced);
    SpacingAddsOnlySpaces(key);
    TrimKeepsNonWhitespace(spaced);
    Trim(spaced)
  }

  /** Trimming keeps every capital after a space. */
  lemma TrimKeepsSpacedCapitals(s: string)
    requires SpacedCapitals(s)
    ensures SpacedCapitals(Trim(s))
  {
    var t := TrimStart(s);
    var l := TrimEnd(t);
    assert t == s[|s| - |t|..];
    SliceKeepsSpacedCapitals(s, |s| - |t|, |s|);
    assert l == t[..|l|];
    SliceKeepsSpacedCapitals(t, 0, |l|);
  }

  lemma {:induction false} SpacingAddsOnlySpaces(s: string)
    ensures RemoveWhitespace(SpaceBeforeCapitals(s)) == RemoveWhitespace(s)
    decreases |s|
  {
    if s != [] {
      var head := if IsUpper(s[0]) then [' ', s[0]] else [s[0]];
      RemoveWhitespaceAppend(head, SpaceBeforeCapitals(s[1..]));
      SpacingAddsOnlySpaces(s[1..]);
      if IsUpper(s[0]) {
        RemoveWhitespaceAppend([' '], [s[0]]);
      }
    }
  }

  lemma {:induction false} NoWhitespaceUnchanged(s: string)
    requires forall i :: 0 <= i < |s| ==> !IsWhitespace(s[i])
    ensures RemoveWhitespace(s) == s
    decreases |s|
  {
    if s != [] {
      NoWhitespaceUnchanged(s[1..]);
    }
  }

  /** A label is its key with spaces put in: read without its spaces it
      gives the key back, for a key without whitespace of its own. */
  lemma KeyLabelKeepsKey(key: string)
    requires forall i :: 0 <= i < |key| ==> !IsWhitespace(key[i])
    ensures RemoveWhitespace(KeyLabel(key)) == key
  {
    NoWhitespaceUnchanged(key);
  }

  lemma {:induction false} SpacingAppend(a: string, b: string)
    ensures SpaceBeforeCapitals(a + b) == SpaceBeforeCapitals(a) + SpaceBeforeCapitals(b)
    decreases |a|
  {
    if a == [] {
      assert a + b == b;
    } else {
      assert (a + b)[1..] == a[1..] + b;
      SpacingAppend(a[1..], b);
    }
  }

  /** Trimming a string that starts and ends with something else than
      whitespace leaves it as it is. */
  lemma TrimUnchanged(s: string)
    requires |s| > 0 && !IsWhitespace(s[0]) && !IsWhitespace(s[|s| - 1])
    ensures Trim(s) == s
  {
  }

  /** A string without capitals is left as it is. */
  lemma {:induction false} SpacingNoCapitals(s: string)
    requires forall i :: 0 <= i < |s| ==> !IsUpper(s[i])
    ensures SpaceBeforeCapitals(s) == s
    decreases |s|
  {
    if s != [] {
      SpacingNoCapitals(s[1..]);
    }
  }

  /** A capitalised word gets one space in front. */
  lemma CapitalWord(capital: char, rest: string)
    requires forall i :: 0 <= i < |rest| ==> !IsUpper(rest[i])
    requires IsUpper(capital)
    ensures SpaceBeforeCapitals([capital] + rest) == [' ', capital] + rest
  {
    SpacingAppend([capital], rest);
    SpacingNoCapitals(rest);
    assert SpaceBeforeCapitals([capital]) == [' ', capital];
  }

  lemma SpacingTwoWords(first: string, capital: char, rest: string)
    requires forall i :: 0 <= i < |first| ==> !IsUpper(first[i])
    requires forall i :: 0 <= i < |rest| ==> !IsUpper(rest[i])
    requires IsUpper(capital)
    ensures SpaceBeforeCapitals(first + [capital] + rest) == first + [' ', capital] + rest
  {
    var w := [capital] + rest;
    assert first + [capital] + rest == first + w;
    SpacingAppend(first, w);
    SpacingNoCapitals(first);
    CapitalWord(capital, rest);
    assert first + ([' ', capital] + rest) == first + [' ', capital] + rest;
  }

  /** A camel-case name of two words gets a space between them: the label
      of "fullName" is "full Name", of "birthDate" "birth Date". */
  lemma KeyLabelTwoWords(first: string, capital: char, rest: string)
    requires |first| > 0 && !IsWhitespace(first[0])
    requires forall i :: 0 <= i < |first| ==> !IsUpper(first[i])
    requires forall i :: 0 <= i < |rest| ==> !IsUpper(rest[i])
    requires IsUpper(capital) && (rest == [] || !IsWhitespace(rest[|rest| - 1]))
    ensures KeyLabel(first + [capital] + rest) == first + [' ', capital] + rest
  {
    SpacingTwoWords(first, capital, rest);
    var l := first + [' ', capital] + rest;
    assert l[0] == first[0];
    assert l[|l| - 1] == if rest == [] then capital else rest[|rest| - 1];
    TrimUnchanged(l);
  }

  /** A camel-case name of three words gets a space before each capital:
      the label of "yearsOfExperience" is "years Of Experience", of
      "agreeToTerms" "agree To Terms". */
  lemma KeyLabelThreeWords(first: string, c2: char, second: string, c3: char, third: string)
    requires |first| > 0 && !IsWhitespace(first[0])
    requires forall i :: 0 <= i < |first| ==> !IsUpper(first[i])
    requires forall i :: 0 <= i < |second| ==> !IsUpper(second[i])
    requires forall i :: 0 <= i < |third| ==> !IsUpper(third[i])
    requires IsUpper(c2) && IsUpper(c3) && (third == [] || !IsWhitespace(third[|third| - 1]))
    ensures KeyLabel(first + [c2] + second + [c3] + third)
         == first + [' ', c2] + second + [' ', c3] + third
  {
    var a := first + [c2] + second;
    var b := [c3] + third;
    assert first + [c2] + second + [c3] + third == a + b;
    SpacingAppend(a, b);
    SpacingTwoWords(first, c2, second);
    SpacingTwoWords([], c3, third);
    assert [] + [c3] + third == b;
    var l := first + [' ', c2] + second + [' ', c3] + third;
    assert SpaceBeforeCapitals(a + b) == l;
    assert l[0] == first[0];
    assert l[|l| - 1] == if third == [] then c3 else third[|third| - 1];
    TrimUnchanged(l);
  }

  // ---------------------------------------------------------------------
  // Values

  /** value.toString(), or value.join(', ') for an array. A present value
      shows as empty text only when it is an array of no items or of one
      empty string. */
  function DisplayText(v: Value): (text: string)
    requires !IsBlank(v)
    ensures text == "" <==> v.Strs? && (v.items == [] || v.items == [""])
    ensures v.Bool? ==> text == (if v.b then "true" else "false")
    ensures v.Num? ==> text == NumberString(v.n)
    ensures v.Str? ==> text == v.s
    ensures v.Strs? ==> text == Join(v.items, ", ")
    ensures v.Files? ==> text == "[object FileList]"
    ensures v == PlainObject ==> text == ObjectText
  {
    match v
    case Bool(b) => if b then "true" else "false"
    case Num(n) => NumberString(n)
    case Str(s) => s
    case Strs(items) => Join(items, ", ")
    case Files(_) => "[object FileList]"
    case PlainObject => ObjectText
  }

  /** Object.prototype.toString of a plain object. */
  const ObjectText := "[object Object]"

  /** value[0]?.name || 'No file': never empty; the first file's name, or
      the fallback. */
  function AttachmentName(files: seq<File>): (name: string)
    ensures name != ""
    ensures name == NoFile || (|files| > 0 && name == files[0].name)
    ensures |files| > 0 && files[0].name != "" ==> name == files[0].name
  {
    if |files| > 0 && files[0].name != "" then files[0].name else NoFile
  }

  /** One row: the photo file list as an attachment, anything else as text.
      Only an array value can give a row with empty text. */
  function RenderRow(field: FormSchema.Field, v: Value): (row: Row)
    requires !IsBlank(v)
    ensures row.field == field
    ensures row.kind == Attachment <==> field == FormSchema.ProfilePhoto && v.Files?
    ensures row.text == "" ==> v.Strs?
  {
    if field == FormSchema.ProfilePhoto && v.Files? then Row(field, Attachment, AttachmentName(v.files))
    else Row(field, Text, DisplayText(v))
  }

  /** Property names are camelCase words without whitespace. */
  lemma KeyHasNoWhitespace(f: FormSchema.Field)
    ensures forall i :: 0 <= i < |FormSchema.Key(f)| ==> !IsWhitespace(FormSchema.Key(f)[i])
  {
    var key := FormSchema.Key(f);
    assert forall i :: 0 <= i < |key| ==> 'A' <= key[i] <= 'z';
  }

  /** The dt text of a row: the label of its property name. */
  function Caption(row: Row): (caption: string)
    ensures SpacedCapitals(caption)
    ensures RemoveWhitespace(caption) == FormSchema.Key(row.field)
  {
    KeyHasNoWhitespace(row.field);
    KeyLabelKeepsKey(FormSchema.Key(row.field));
    KeyLabel(FormSchema.Key(row.field))
  }

  /** Whether a group has a value worth a row; an empty group has none. */
  predicate HasData(entries: Entries): (has: bool)
    ensures entries == [] ==> !has
  {
    exists i :: 0 <= i < |entries| && !IsBlank(entries[i].1)
  }

  /** A group has data exactly when one of its values is truthy, a boolean or
      a number. */
  lemma HasDataTruthy(entries: Entries)
    ensures HasData(entries) <==>
      exists i :: 0 <= i < |entries| && (Truthy(entries[i].1) || entries[i].1.Bool? || entries[i].1.Num?)
  {
  }

  /** The rows of a section: one per present entry, in entry order. */
  function RenderRows(entries: Entries): (rows: seq<Row>)
    ensures |rows| <= |entries|
    decreases |entries|
  {
    if entries == [] then []
    else if IsBlank(entries[0].1) then RenderRows(entries[1..])
    else [RenderRow(entries[0].0, entries[0].1)] + RenderRows(entries[1..])
  }

  /** Every present entry is rendered. */
  lemma {:induction false} RenderRowsComplete(entries: Entries, i: nat)
    requires i < |entries| && !IsBlank(entries[i].1)
    ensures RenderRow(entries[i].0, entries[i].1) in RenderRows(entries)
    decreases |entries|
  {
    if i > 0 {
      assert entries[1..][i - 1] == entries[i];
      RenderRowsComplete(entries[1..], i - 1);
    }
  }

  /** Every row comes from a present entry. */
  lemma {:induction false} RenderRowsSound(entries: Entries, r: Row)
    requires r in RenderRows(entries)
    ensures exists i :: 0 <= i < |entries| && !IsBlank(entries[i].1) && r == RenderRow(entries[i].0, entries[i].1)
    decreases |entries|
  {
    if !IsBlank(entries[0].1) && r == RenderRow(entries[0].0, entries[0].1) {
      assert 0 < |entries|;
    } else {
      RenderRowsSound(entries[1..], r);
      var j :| 0 <= j < |entries[1..]| && !IsBlank(entries[1..][j].1) && r == RenderRow(entries[1..][j].0, entries[1..][j].1);
      assert entries[j + 1] == entries[1..][j];
    }
  }

  /** A section has rows exactly when one of its entries is present. */
  lemma {:induction false} RenderRowsCount(entries: Entries)
    ensures |RenderRows(entries)| > 0 <==> HasData(entries)
    decreases |entries|
  {
    if entries != [] {
      RenderRowsCount(entries[1..]);
      if HasData(entries[1..]) {
        var j :| 0 <= j < |entries[1..]| && !IsBlank(entries[1..][j].1);
        assert entries[j + 1] == entries[1..][j];
      }
      if HasData(entries) && IsBlank(entries[0].1) {
        var j :| 0 <= j < |entries| && !IsBlank(entries[j].1);
        assert entries[1..][j - 1] == entries[j];
      }
    }
  }

  /** Rendering keeps the order of the entries. */
  lemma {:induction false} RenderRowsAppend(a: Entries, b: Entries)
    ensures RenderRows(a + b) == RenderRows(a) + RenderRows(b)
    decreases |a|
  {
    if a == [] {
      assert a + b == b;
    } else {
      assert (a + b)[1..] == a[1..] + b;
      RenderRowsAppend(a[1..], b);
    }
  }

  /** renderSection: nothing for a section without data. */
  function RenderSection(group: Group, entries: Entries): (s: Option<Section>)
    ensures s.Some? ==> s.value.group == group && |s.value.rows| > 0
    ensures s.None? <==> forall i :: 0 <= i < |entries| ==> IsBlank(entries[i].1)
  {
    RenderRowsCount(entries);
    if HasData(entries) then Some(Section(group, RenderRows(entries))) else None
  }

  // ---------------------------------------------------------------------
  // The page

  /** The stored value of a field, under the field's property name. */
  function Entry(d: Object, f: FormSchema.Field): (FormSchema.Field, Value) {
    (f, Get(d, FormSchema.Key(f)))
  }

  /** The personal group: the first five schema fields, with their stored
      values. */
  function PersonalInfo(d: Object): (entries: Entries)
    ensures |entries| == 5
    ensures forall i :: 0 <= i < 5 ==> entries[i] == Entry(d, FormSchema.Fields[i])
  {
    [ Entry(d, FormSchema.FullName),
      Entry(d, FormSchema.Email),
      Entry(d, FormSchema.Gender),
      Entry(d, FormSchema.BirthDate),
      Entry(d, FormSchema.ProfilePhoto) ]
  }

  /** The professional group: the next two schema fields, with their
      stored values. */
  function ProfessionalInfo(d: Object): (entries: Entries)
    ensures |entries| == 2
    ensures forall i :: 0 <= i < 2 ==> entries[i] == Entry(d, FormSchema.Fields[5 + i])
  {
    [ Entry(d, FormSchema.YearsOfExperience),
      Entry(d, FormSchema.Skills) ]
  }

  /** The additional group: the stored bio, and the consent flag shown as
      "✓ Agreed" exactly when it is truthy and "✗ Not Agreed" otherwise; the
      flag's text is never blank, so this section always has data. */
  function AdditionalInfo(d: Object): (entries: Entries)
    ensures |entries| == 2 && entries[0] == Entry(d, FormSchema.Bio)
    ensures entries[1].0 == FormSchema.AgreeToTerms && !IsBlank(entries[1].1)
    ensures entries[1].1 == Str(Agreed) <==> Truthy(Get(d, FormSchema.Key(FormSchema.AgreeToTerms)))
    ensures entries[1].1 == Str(Agreed) || entries[1].1 == Str(NotAgreed)
  {
    [ Entry(d, FormSchema.Bio),
      (FormSchema.AgreeToTerms,
       Str(if Truthy(Get(d, FormSchema.Key(FormSchema.AgreeToTerms))) then Agreed else NotAgreed)) ]
  }

  function FieldsOf(entries: Entries): seq<FormSchema.Field> {
    seq(|entries|, i requires 0 <= i < |entries| => entries[i].0)
  }

  /** The three groups list every schema field exactly once, in schema
      order. */
  lemma GroupsCoverSchema(d: Object)
    ensures FieldsOf(PersonalInfo(d)) + FieldsOf(ProfessionalInfo(d)) + FieldsOf(AdditionalInfo(d)) == FormSchema.Fields
  {
  }

  /** A section that renderSection returned, as a list of zero or one. */
  function Shown(s: Option<Section>): seq<Section> {
    if s.Some? then [s.value] else []
  }

  function ResultPage(formData: Option<Object>): (page: Page)
    ensures page.NoDataFound? <==> formData.None?
    ensures page.Registration? ==>
      1 <= |page.sections| <= 3 && page.sections[|page.sections| - 1].group == Additional
  {
    match formData
    case None => NoDataFound
    case Some(d) =>
      Registration(
        Shown(RenderSection(Personal, PersonalInfo(d)))
        + Shown(RenderSection(Professional, ProfessionalInfo(d)))
        + Shown(RenderSection(Additional, AdditionalInfo(d))))
  }

  /** A section appears exactly when one of its values is present; the
      additional section always appears, last. */
  lemma SectionsShown(d: Object)
    ensures ResultPage(Some(d)).sections ==
      (if HasData(PersonalInfo(d)) then [Section(Personal, RenderRows(PersonalInfo(d)))] else [])
      + (if HasData(ProfessionalInfo(d)) then [Section(Professional, RenderRows(ProfessionalInfo(d)))] else [])
      + [Section(Additional, RenderRows(AdditionalInfo(d)))]
  {
  }

  /** 0 and false are shown; undefined, null and '' are not. */
  lemma FalsyButPresent()
    ensures !IsBlank(Num(0)) && DisplayText(Num(0)) == "0"
    ensures !IsBlank(Bool(false)) && DisplayText(Bool(false)) == "false"
    ensures IsBlank(Str("")) && IsBlank(Null) && IsBlank(Undefined)
  {
    assert DigitChar(0) == '0';
  }

  /** The photo file list is shown by its first file's name, or "No file";
      a photo that is a plain object is shown as "[object Object]" text. */
  lemma PhotoRow(files: seq<File>)
    ensures RenderRow(FormSchema.ProfilePhoto, Files(files)).kind == Attachment
    ensures RenderRow(FormSchema.ProfilePhoto, Files(files)).text ==
      if |files| > 0 && files[0].name != "" then files[0].name else NoFile
    ensures RenderRow(FormSchema.ProfilePhoto, PlainObject) == Row(FormSchema.ProfilePhoto, Text, ObjectText)
  {
  }

  /** An array is shown with its items joined by ", " in stored order. */
  lemma ArrayRow(field: FormSchema.Field, items: seq<string>)
    ensures RenderRow(field, Strs(items)) == Row(field, Text, Join(items, ", "))
  {
  }

  /** The name, the experience and the photo of a validated record are
      present values. */
  lemma ValidRecordValuesPresent(candidate: Object, fc: FormSchema.FormatChecks)
    requires FormSchema.Validate(candidate, fc).Valid?
    ensures var d := FormSchema.Validate(candidate, fc).data;
      && !IsBlank(Get(d, FormSchema.Key(FormSchema.FullName)))
      && !IsBlank(Get(d, FormSchema.Key(FormSchema.YearsOfExperience)))
      && Get(d, FormSchema.Key(FormSchema.ProfilePhoto)).Files?
  {
    assert FormSchema.FieldPasses(candidate, FormSchema.FullName, fc);
    assert FormSchema.FieldPasses(candidate, FormSchema.YearsOfExperience, fc);
    assert FormSchema.FieldPasses(candidate, FormSchema.ProfilePhoto, fc);
  }

  /** The page shows all three sections, in order, with the given row for
      the photo in the personal section. */
  predicate ShowsSections(d: Object, photo: Row) {
    var sections := ResultPage(Some(d)).sections;
    && |sections| == 3
    && sections[0].group == Personal
    && sections[1].group == Professional
    && sections[2].group == Additional
    && photo in sections[0].rows
  }

  /** The page shows all three sections, and the photo, a file list, as an
      attachment row with its file name. */
  predicate ShowsEverySection(d: Object) {
    var photo := Get(d, FormSchema.Key(FormSchema.ProfilePhoto));
    photo.Files? && ShowsSections(d, Row(FormSchema.ProfilePhoto, Attachment, AttachmentName(photo.files)))
  }

  /** A section with a present value is shown, with that value's row. */
  lemma PresentEntryShown(group: Group, entries: Entries, i: nat)
    requires i < |entries| && !IsBlank(entries[i].1)
    ensures RenderSection(group, entries).Some?
    ensures RenderRow(entries[i].0, entries[i].1) in RenderSection(group, entries).value.rows
  {
    RenderRowsComplete(entries, i);
  }

  /** A page showing all three groups heads them, in order, with their titles. */
  lemma SectionHeadings(d: Object, photo: Row)
    requires ShowsSections(d, photo)
    ensures var sections := ResultPage(Some(d)).sections;
      [Title(sections[0].group), Title(sections[1].group), Title(sections[2].group)]
        == ["Personal Information", "Professional Info", "Additional Information"]
  {
  }

  /** When all three groups are rendered, the page shows them in order. */
  lemma ThreeSections(d: Object, personal: Section, professional: Section, additional: Section)
    requires RenderSection(Personal, PersonalInfo(d)) == Some(personal)
    requires RenderSection(Professional, ProfessionalInfo(d)) == Some(professional)
    requires RenderSection(Additional, AdditionalInfo(d)) == Some(additional)
    ensures ResultPage(Some(d)) == Registration([personal, professional, additional])
  {
    ShownAll(RenderSection(Personal, PersonalInfo(d)), RenderSection(Professional, ProfessionalInfo(d)),
      RenderSection(Additional, AdditionalInfo(d)));
  }

  /** Three rendered sections are all shown, in order. */
  lemma ShownAll(first: Option<Section>, second: Option<Section>, third: Option<Section>)
    requires first.Some? && second.Some? && third.Some?
    ensures Shown(first) + Shown(second) + Shown(third) == [first.value, second.value, third.value]
  {
  }

  /** A record whose experience and photo are present shows all three
      sections, with the photo's row in the personal section. */
  lemma AllSectionsShown(d: Object)
    requires !IsBlank(Get(d, FormSchema.Key(FormSchema.YearsOfExperience)))
    requires !IsBlank(Get(d, FormSchema.Key(FormSchema.ProfilePhoto)))
    ensures ShowsSections(d, RenderRow(FormSchema.ProfilePhoto, Get(d, FormSchema.Key(FormSchema.ProfilePhoto))))
  {
    PresentEntryShown(Personal, PersonalInfo(d), 4);
    PresentEntryShown(Professional, ProfessionalInfo(d), 0);
    PresentEntryShown(Additional, AdditionalInfo(d), 1);
    ThreeSections(d, RenderSection(Personal, PersonalInfo(d)).value,
      RenderSection(Professional, ProfessionalInfo(d)).value,
      RenderSection(Additional, AdditionalInfo(d)).value);
  }

  /** A record that passed validation shows all three sections, and its
      photo as an attachment row of the personal section. */
  lemma ValidRecordShowsAllSections(candidate: Object, fc: FormSchema.FormatChecks)
    requires FormSchema.Validate(candidate, fc).Valid?
    ensures ShowsEverySection(FormSchema.Validate(candidate, fc).data)
  {
    var d := FormSchema.Validate(candidate, fc).data;
    ValidRecordValuesPresent(candidate, fc);
    AllSectionsShown(d);
  }
}
